=== FILE: README.md ===
# AI Buddy cocktail generator — a Dafny model

This project models the core of the AI Buddy cocktail generator, a React application with four parts:

- **Ingredient picker.** The user picks ingredients in a picker with search, keyboard navigation and auto-selection.
- **Cocktail database.** The application asks TheCocktailDB for the drinks that use each chosen ingredient. It merges the answers into one list, with no drink listed twice.
- **Chat model.** It asks an OpenAI chat model to recommend one of those drinks for the user's mood. The user may then give feedback and ask for a different drink.
- **AI settings.** A settings panel holds the API key, the temperature, the token limit and the model name.

The modules follow the source files:

| module | file | models |
|---|---|---|
| `Types` | `types.dfy` | drinks with their fifteen ingredient/measure slots, the AI configuration, JavaScript truthiness |
| `Strings` | `strings.dfy` | `trim` (the exact ECMAScript white-space set), ASCII `toLowerCase`, `includes`, `join` and one-character `split`, with their laws |
| `CocktailDb` | `cocktaildb.dfy` | `src/api/cocktaildb.ts`: search by one or many ingredients, de-duplication keyed on `idDrink` through a JavaScript `Map`, the recipe text |
| `OpenAi` | `openai.dfy` | `src/api/openai.ts`: the system prompt, the cocktail list text, both prompt builders, the three recommendation calls |
| `Settings` | `settings.dfy` | `src/components/AISettings.tsx`: the five change handlers and their range checks |
| `Picker` | `picker.dfy` | `src/components/UserInput.tsx`: add, remove, filter, highlight, the keyboard handler, the auto-select effect |
| `App` | `app.dfy` | `src/App.tsx`: initial state, `generateCocktail`, `generateCocktailWithUserFeedback`, `resetForm`, `toggleSettings` |

The model never calls the network. Each service's reply is a function parameter:

- `search` is the search by ingredient (`filter.php?i=`);
- `lookup` is the lookup by id (`lookup.php?i=`);
- `chat` is the chat-completions endpoint.

Each parameter maps a request to a reply, where a reply is one of:

- a network or HTTP failure;
- a well-formed answer;
- for the chat endpoint, a malformed body.

A handler in App is asynchronous. It is modelled as a `Run`: the state it shows while pending, and the state it leaves once every promise has settled.

## Model

| member | source | states |
|---|---|---|
| CocktailDb.SearchByIngredient | src/api/cocktaildb.ts:34-48 | a successful reply gives its drink list; a failed reply, or one whose `drinks` is null, gives the empty list |
| CocktailDb.SearchByMultipleIngredients | src/api/cocktaildb.ts:50-62 | no ingredients give no drinks; every drink in the merged list comes from the search of some queried ingredient |
| CocktailDb.SearchByMultipleMembers | src/api/cocktaildb.ts:50-62 | a drink is in the merged list iff some queried ingredient's search returns it |
| CocktailDb.SearchByMultipleAppend | src/api/cocktaildb.ts:50-62 | the merged list for two ingredient lists is the concatenation of the merged lists, in query order |
| CocktailDb.SearchByMultipleSkipsEmpty | src/api/cocktaildb.ts:43-47 | an ingredient whose search fails, or whose `drinks` is null or empty, adds nothing to the merged list |
| CocktailDb.SearchSingleAgrees | src/api/cocktaildb.ts:50-62 | merging the results for one ingredient gives that ingredient's search |
| CocktailDb.Position | src/api/cocktaildb.ts:21-24 | the index of the first drink with a given id, or none exactly when no drink has it |
| CocktailDb.LastWith | src/api/cocktaildb.ts:21-24 | the drink with a given id that no later drink shares, as the last `Map.set` for a key wins; none exactly when no drink has it |
| CocktailDb.FirstIdsSpec | src/api/cocktaildb.ts:21-24 | the ids of the map's keys have no repeats; each id appears iff it occurs in the input; their order is that of first occurrence; there are at most as many as drinks |
| CocktailDb.FirstIdsMembers | src/api/cocktaildb.ts:21-24 | an id is a key of the map iff some drink has it, and there are no more keys than drinks |
| CocktailDb.FirstIdsOrdered | src/api/cocktaildb.ts:21-24 | the map's keys are in the order of their ids' first positions in the input |
| CocktailDb.DedupIds | src/api/cocktaildb.ts:21-24 | de-duplication lists the ids in order of first occurrence |
| CocktailDb.DedupDistinct | src/api/cocktaildb.ts:21-24 | no id appears twice after de-duplication |
| CocktailDb.DedupKeepsLast | src/api/cocktaildb.ts:21-24 | every kept drink is the last drink in the input with its id, as `Map.set` overwrites |
| CocktailDb.DedupOfDistinct | src/api/cocktaildb.ts:21-24 | a list without repeated ids is returned unchanged |
| CocktailDb.DedupIdempotent | src/api/cocktaildb.ts:21-24 | de-duplicating twice is de-duplicating once |
| CocktailDb.DedupBounds | src/api/cocktaildb.ts:21-24 | the result is no longer than the input, holds only input drinks, and keeps every input id |
| CocktailDb.DedupStep | src/api/cocktaildb.ts:22-23 | one `Map.set` either overwrites the entry at the id's first position or appends a new one |
| CocktailDb.UniqueDrinks | src/api/cocktaildb.ts:21-24 | the loop over the `Map` yields first-occurrence order, distinct ids, and each id's last record |
| CocktailDb.GetCocktailListBasedOnIngredients | src/api/cocktaildb.ts:9-32 | no ingredients give no drinks; otherwise the ids are exactly the merged list's ids in order of first occurrence, and each drink is the last merged record with its id |
| CocktailDb.CocktailListUsesOnlyQueried | src/api/cocktaildb.ts:9-32 | the result depends only on the replies for the queried ingredients |
| CocktailDb.SameSearchesSameUnion | src/api/cocktaildb.ts:50-62 | the merged list depends only on the replies for the queried ingredients |
| CocktailDb.MockUnion | src/api/cocktaildb.test.ts:22-33 | the test's coffee and rum replies merge into eight drinks with ids 1,2,4,5,6,2,3,5 |
| CocktailDb.MockDedupFirstRepeat | src/api/cocktaildb.test.ts:35-38 | the repeated id 2 after 1,2,4,5,6 overwrites in place and adds no drink |
| CocktailDb.MockDedupNew | src/api/cocktaildb.test.ts:35-38 | the new id 3 after that is appended at the end |
| CocktailDb.MockDedup | src/api/cocktaildb.test.ts:35-38 | de-duplicating ids 1,2,4,5,6,2,3,5 keeps six drinks in the order 1,2,4,5,6,3 |
| CocktailDb.CoffeeAndRum | src/api/cocktaildb.test.ts:21-39 | coffee and rum give six distinct drinks in the order 1,2,4,5,6,3, the shape the test expects |
| CocktailDb.RepeatExample | src/api/cocktaildb.ts:21-24 | an example: drinks 1, 2, then 1 again de-duplicate to the second record of 1 followed by 2 |
| CocktailDb.RepeatKeepsFirstPositionLastRecord | src/api/cocktaildb.ts:21-24 | for any id in the input: in the result it sits after exactly the ids first seen before its first drink, and it holds its last drink |
| CocktailDb.IndicesBetween | src/api/cocktaildb.ts:77-81 | exactly the slot numbers in range whose ingredient is truthy, in ascending order |
| CocktailDb.ItemsAt | src/api/cocktaildb.ts:82-95 | one recipe line per chosen slot |
| CocktailDb.FormatIngredients | src/api/cocktaildb.ts:77-90 | the loop over slots 1 to 15 gives one line per truthy ingredient, in slot order, with the measure trimmed and joined to the ingredient |
| CocktailDb.GetCocktailRecipe | src/api/cocktaildb.ts:64-105 | the recipe is empty exactly when the lookup fails, `drinks` is null or the list is empty; otherwise it starts with the line "Ingredients:" |
| CocktailDb.RecipeReadBack | src/api/cocktaildb.ts:93-99 | splitting the recipe at newlines gives back its lines: "Ingredients:", one "- " line per ingredient, an empty line, "Instructions:", the instructions |
| CocktailDb.RecipeLinesNoNewline | src/api/cocktaildb.ts:93-99 | no recipe line has a newline when no ingredient, measure or instruction text has one |
| CocktailDb.ItemLineNoNewline | src/api/cocktaildb.ts:82-88 | an ingredient line has no newline when its slot's ingredient and measure have none |
| CocktailDb.RecipeMissingDrink | src/api/cocktaildb.ts:64-105 | a failed lookup, a null `drinks` or an empty list gives the empty recipe |
| OpenAi.CocktailListText | src/api/openai.ts:13-21 | the text is empty exactly when there are no drinks, and it contains every drink's "idDrink: … - nameDrink: …" entry |
| OpenAi.CocktailListEmptyIff | src/api/openai.ts:13-21 | the cocktail list text is empty iff there are no drinks |
| OpenAi.CocktailListSingle | src/api/openai.ts:13-21 | the text for one drink is exactly its entry |
| OpenAi.CocktailListAppend | src/api/openai.ts:13-21 | the text for two lists is their texts joined by ", " |
| OpenAi.CocktailListMentions | src/api/openai.ts:13-21 | every drink's id and name appear in the text |
| OpenAi.MoodRequestMentions | src/api/openai.ts:24-25 | the user request mentions the mood and the whole cocktail list |
| OpenAi.FeedbackContentMentions | src/api/openai.ts:45-47 | the feedback request quotes the feedback and mentions the mood and the whole cocktail list |
| OpenAi.GetPrompts | src/api/openai.ts:23-37 | two messages: the system prompt, then a user message naming the mood and the cocktail list |
| OpenAi.GetPromptsConsideringUserFeedback | src/api/openai.ts:39-63 | three messages: the system prompt, the previous recommendation as the assistant's message, then a user message quoting the feedback and naming the mood and the list |
| OpenAi.GetRecommendedCocktailV0 | src/api/openai.ts:66-104 | fails exactly when the reply is not a well-formed answer; otherwise returns its id and reason with the recipe looked up for that id |
| OpenAi.GetRecommendedCocktailV1 | src/api/openai.ts:107-169 | any failure gives the empty recommendation; an answer gives its id and reason with the recipe looked up for that id |
| OpenAi.GetRecommendedCocktailV1WithUserFeedback | src/api/openai.ts:172-243 | the same for the request that carries the feedback and the previous recommendation |
| OpenAi.V0AndV1Agree | src/api/openai.ts:66-169 | V0 and V1 send the same messages; on the same reply V1 returns V0's recommendation, and the empty one where V0 fails |
| Settings.ApiKeyChanged | src/components/AISettings.tsx:37-42 | typing changes only the key input; the active key is untouched |
| Settings.Authorize | src/components/AISettings.tsx:44-49 | authorising makes the typed key the active one |
| Settings.TemperatureChanged | src/components/AISettings.tsx:51-59 | a number in [0, 2] replaces the temperature; anything else leaves the configuration unchanged |
| Settings.MaxTokensChanged | src/components/AISettings.tsx:61-69 | an integer in [1, 2048] replaces the token limit; anything else leaves the configuration unchanged |
| Settings.ModelChanged | src/components/AISettings.tsx:71-76 | the model becomes the chosen one and the keys are untouched |
| Settings.ApplyKeepsRange | src/components/AISettings.tsx:51-69 | one edit keeps temperature and token limit within their ranges |
| Settings.ApplyAllKeepsRange | src/components/AISettings.tsx:51-69 | any sequence of edits keeps them within their ranges |
| Settings.ApiKeyOnlyByAuthorize | src/components/AISettings.tsx:37-49 | only the authorise button changes the active key, and it sets the typed one |
| Settings.ApiKeyStableWithoutAuthorize | src/components/AISettings.tsx:37-49 | without an authorise click the active key never changes |
| Settings.NotANumberChangesNothing | src/components/AISettings.tsx:51-69 | input that does not parse as a number changes nothing |
| Picker.TrimOfTrimmed | src/components/UserInput.tsx:44 | trimming an already trimmed name returns it unchanged |
| Strings.TrimIsInfix | src/components/UserInput.tsx:44 | `trim` leaves an infix of its input with only white space before and after it |
| Strings.TrimIdempotent | src/components/UserInput.tsx:44 | trimming twice is trimming once |
| Picker.AddNew | src/components/UserInput.tsx:47-55 | adding to a list when absent: the members are the old ones plus the name, the old list is a prefix, and the list is unchanged iff the name was already there |
| Picker.AddedValid | src/components/UserInput.tsx:43-58 | adding a trimmed name to both lists of a valid picker leaves it valid |
| Picker.AddIngredient | src/components/UserInput.tsx:43-58 | a blank name changes nothing; otherwise the trimmed name ends up in both lists, each list keeps its old contents and grows by at most one, a list is unchanged iff the name was already in it, and the search is cleared |
| Picker.AddKeepsValid | src/components/UserInput.tsx:43-58 | adding keeps both lists free of duplicates, the selection known and every name trimmed |
| Picker.WithoutSpec | src/components/UserInput.tsx:115-117 | filtering out a name keeps exactly the other elements, in order, each as many times as before |
| Picker.SubsequenceKeepsDistinct | src/components/UserInput.tsx:115-117 | a subsequence of a list without duplicates has none |
| Picker.SubsequenceMembers | src/components/UserInput.tsx:115-117 | a subsequence holds only elements of the list |
| Picker.RemoveIngredient | src/components/UserInput.tsx:114-118 | the name is no longer selected, every other selection stays in order with its multiplicity, and nothing else changes |
| Picker.RemoveKeepsValid | src/components/UserInput.tsx:114-118 | removing keeps the picker valid |
| Picker.FilterIngredients | src/components/UserInput.tsx:121-124 | the suggestions are no more than the known ingredients, and each is known and matches the search without being selected |
| Picker.Filtered | src/components/UserInput.tsx:121-124 | every suggestion is known, unselected, and contains the search term ignoring ASCII case |
| Picker.FilterSpec | src/components/UserInput.tsx:121-124 | a name is suggested iff it is known, contains the search term ignoring case and is not selected; suggestions keep the known list's order |
| Picker.FilteredTrimmed | src/components/UserInput.tsx:121-124 | every suggestion is trimmed |
| Picker.NextHighlight | src/components/UserInput.tsx:64-69 | the down arrow keeps the highlight within the suggestion list, and from no highlight lands on the first suggestion |
| Picker.PrevHighlight | src/components/UserInput.tsx:71-76 | the up arrow keeps the highlight within the suggestion list, and from the first suggestion or from none lands on the last |
| Picker.ArrowsInverse | src/components/UserInput.tsx:64-76 | up after down, and down after up, return to the same highlight |
| Picker.StepsDownCycle | src/components/UserInput.tsx:64-69 | k presses of the down arrow move the highlight k places, wrapping around at the end |
| Picker.FindExact | src/components/UserInput.tsx:86-88 | finds the first suggestion equal to the term ignoring case, as `Array.prototype.find` does, or none exactly when there is no such suggestion |
| Picker.KeyDown | src/components/UserInput.tsx:60-112 | no key removes a selected or known ingredient; only Enter and Tab add to the selection, and then the search is cleared; any other key changes nothing |
| Picker.EnterResolves | src/components/UserInput.tsx:78-98 | Enter with a blank term does nothing; otherwise it selects the highlighted suggestion, else the exact match, else the trimmed term, and clears the search |
| Picker.EnterChoiceTrimmed | src/components/UserInput.tsx:78-98 | the name Enter picks trims to the highlighted suggestion, else the exact match, else the trimmed term, and is never blank |
| Picker.TabResolves | src/components/UserInput.tsx:100-105 | Tab selects the only suggestion when there is exactly one, and otherwise does nothing |
| Picker.EscapeClears | src/components/UserInput.tsx:107-110 | Escape clears the search and the highlight |
| Picker.ArrowsMoveOnlyHighlight | src/components/UserInput.tsx:64-76 | the arrows change only the highlight, and keep it on a suggestion |
| Picker.SearchChanged | src/components/UserInput.tsx:38-41 | typing sets the search term and moves the highlight to the first suggestion; the lists are untouched |
| Picker.AutoSelect | src/components/UserInput.tsx:127-132 | the effect acts exactly when the search is non-empty and its one suggestion equals it ignoring case; then the trimmed suggestion is selected, the search cleared and the highlight reset (a blank name is ignored, as addIngredient does); otherwise nothing changes; it only ever adds, at most one ingredient |
| Picker.AutoSelectSettles | src/components/UserInput.tsx:127-132 | the auto-select effect settles after one run, and when it acts it clears the search |
| Picker.AutoSelectFires | src/components/UserInput.tsx:127-132 | on a valid picker a lone exact match is always appended to the selection, the search is cleared and nothing is highlighted, the known list unchanged |
| Picker.AutoSelectKeepsValid | src/components/UserInput.tsx:127-132 | the auto-select effect keeps the picker valid |
| Picker.Handle | src/components/UserInput.tsx:38-118 | no handler forgets a known ingredient, and only removing and clearing shrink the selection |
| Picker.Step | src/components/UserInput.tsx:38-132 | the same with the effect after the handler; after a removal the name is gone unless the effect put it back, clearing the search |
| Picker.RemovedLoneMatchReturns | src/components/UserInput.tsx:114-132 | removing the one ingredient that the current search names exactly puts it straight back at the end of the selection, because the effect runs after the removal, and clears the search |
| Picker.KeyDownKeepsValid | src/components/UserInput.tsx:60-112 | every key keeps the picker valid |
| Picker.StepKeepsValid | src/components/UserInput.tsx:38-132 | every picker event, followed by the auto-select effect that runs after every render, keeps it valid |
| Picker.RunKeepsValid | src/components/UserInput.tsx:38-132 | any sequence of events, each followed by the auto-select effect, keeps it valid; in particular the selection never has duplicates |
| App.Initial | src/App.tsx:17-45 | the first state has the key from the environment, settings within range, a listed model, nothing loading and the default ingredients selected |
| App.Howdy | src/App.tsx:104-109 | the text is the greeting, then the reason, then the recipe introduction, and ends with the recipe |
| App.HowdyMentions | src/App.tsx:104-109 | the text shown contains the reason and the recipe |
| App.Craft | src/App.tsx:83-116 | given the drink list: it is stored, loading ends, the inputs are untouched, and the improve section can only open |
| App.Shown | src/App.tsx:102-109 | storing a recommendation shows a text containing its reason and recipe, and changes nothing else the handler reads |
| App.Recommended | src/App.tsx:94-111 | a failed model call leaves the state alone; a recommendation is stored, shown and opens the improve section |
| App.GenerateCocktail | src/App.tsx:48-117 | without a mood or ingredients nothing happens; otherwise it shows loading while pending, ends not loading, and stores the deduplicated drink list of the selected ingredients, with the inputs untouched |
| App.GenerateWithoutRecommendation | src/App.tsx:88-92 | with no API key the drinks are still listed, but no recommendation is made and the improve section is not opened |
| App.GenerateSucceeds | src/App.tsx:94-111 | with a key and a good reply it stores the recommendation, shows the text with the reason and recipe, and opens the improve section |
| App.JoinedFeedbackEmptyIff | src/App.tsx:146-152 | the joined feedback is empty iff the history the handler starts from is empty and the current feedback is blank |
| App.FeedbackHandler | src/App.tsx:143-184 | as written: the handler appends the trimmed feedback to the history it captured, not the current one; loading is raised while pending and lowered at the end; an empty join stops early without calling the model |
| App.GenerateCocktailWithUserFeedback | src/App.tsx:143-184 | corrected to start from the current history: shows loading while pending and ends not loading; the trimmed feedback is appended to the current history; an empty join leaves the recommendation alone, otherwise the new one is stored and shown |
| App.FeedbackFlowRequest | src/App.tsx:157-164 | for whatever history the handler starts from, the request carries the mood, the listed drinks, the joined feedback, the settings, and the previous text as the assistant's message |
| App.FeedbackFlowStores | src/App.tsx:157-174 | for whatever history the handler starts from, with some feedback to send, the stored recommendation is the model's answer to that joined history |
| App.StaleSecondSubmitLost | src/App.tsx:143-184 | as written, a submission that changes none of the memoised values is overwritten by the next one; the corrected handler keeps both |
| App.BlankResubmitStaysStale | src/App.tsx:143-184 | as written, a second blank submission on an empty history stops early again with the history `[""]`; the corrected handler sends `". "` |
| App.ResetForm | src/App.tsx:120-127 | mood, selection, generated text and feedback are cleared and the improve section closed; settings and drinks stay |
| App.ToggleSettings | src/App.tsx:130-140 | the settings panel flips and nothing else changes |
| App.ToggleTwiceIsIdentity | src/App.tsx:130-140 | toggling twice restores the state |
| App.GenerateAfterResetIsNoOp | src/App.tsx:50-53 | after a reset, generating does nothing |
| App.Step | src/App.tsx:48-184 | only the settings panel changes the configuration, only a feedback submission changes the history, and only typing or a reset changes the mood and the selection |
| App.StepInvariants | src/App.tsx:48-184 | with the corrected feedback handler, one settled handler keeps the settings in range, ends not loading and only extends the feedback history |
| App.RunAllInvariants | src/App.tsx:48-184 | with the corrected feedback handler, any sequence of settled handlers keeps the settings in range, ends not loading and only extends the feedback history |

## Left out

- HTTP, JSON and promises. `fetch`, `response.json()`, `JSON.parse` and `Promise.all` are not modelled. The services' replies are parameters, and a malformed body is one reply case.
- Concurrency. Two handlers running at once, and React's batching of state updates, are not modelled. A handler's run is its pending state and its final state, computed from the state it started with.
- Number parsing. `parseFloat` and `parseInt` are an `Option` parameter of the settings handlers, so their grammar is not modelled. The temperature is a real number, not a double.
- Lower-casing. `toLowerCase` is modelled for ASCII letters only.
- Template whitespace. Prompt and display texts follow the source's template literals, but only the parts the contracts speak of are relied on.
- Other files. `src/Api.ts`, `src/components/Results.tsx` and `src/components/Instructions.tsx` are not part of this model. They are an older client and presentational components.
- View-only code. JSX rendering, `console` logging, `document.startViewTransition` and `import.meta.env` are not modelled. The environment key is a parameter of `App.Initial`.
- Other drink fields. Drink records keep the id, name, thumbnail, instructions and fifteen ingredient/measure slots. The index signature's other fields are dropped.
- App.Initial: the default list of thirty-six ingredients is not proved to be free of duplicates. That is why picker validity is assumed of a starting state rather than proved for it.
- Picker state. The picker's selection lives in `PickerState`. In the source it is the App's `selectedIngredients`, passed down with its setter.
- OpenAi.GetRecommendedCocktailV0: the function does not check `response.ok`. A non-OK reply has no `choices`, so the model treats it as a failure that reaches the caller.
- Outer catch. The outer `try`/`catch` of `getCocktailListBasedOnIngredients` is not modelled. For replies of the declared `APIResponse` shape it cannot run, because `searchByIngredient` already turns every failed request into `[]`.
- Wrong-shape search replies. A `drinks` value that is truthy but not an array (such as `5`), or an array holding `null`, is not modelled. In the source it makes `drinks.map` or `drink.idDrink` throw, and the outer catch then returns `[]`.
- Test call. The test calls `searchByMultipleIngredients`, which the module does not export, and it expects de-duplicated drinks. `CocktailDb.CoffeeAndRum` therefore states the expectation of the exported function that de-duplicates.
- App.ResetForm: the picker's auto-select effect after a reset is not part of `App.Step`. It is modelled in the picker, as `Picker.Step` of the `SelectionCleared` event.
- OpenAi.GetRecommendedCocktailV0: a reply whose content parses as JSON but lacks `idDrink` or `reason` is not modelled. The source then returns `undefined` fields instead of throwing.
- OpenAi.GetRecommendedCocktailV1: the same holds for a reply whose content parses but has the wrong shape.
- App.GenerateCocktailWithUserFeedback: the page steps use the corrected handler, which starts from the current history. The handler as written, with its stale captured history, is `App.FeedbackHandler`; see Findings.
- Object identity. The memoisation's dependency check is modelled as equality of values, while React compares objects by identity. The feedback handler never replaces `configuration` or `cocktails`, so across one submission the two checks agree.
- Default ingredients. `src/App.tsx` imports `DEFAULT_INGREDIENTS`, which `src/components/UserInput.tsx` declares without exporting. The model uses the list as declared.

## Findings

| source | as written | input that shows it | evidently intended | confidence | as-written member | corrected member |
|---|---|---|---|---|---|---|
| src/App.tsx:143-184 | `generateCocktailWithUserFeedback` is memoised on `[userFeedback, generatedCocktail, configuration, mood, cocktails]`, which leaves out `previousUserFeedback`; the handler appends to the history it captured | any submission that changes none of the memoised values, such as a resubmission whose model call fails right after another failed one and so re-shows the same empty recommendation: the next submission starts again from the history the first one started from, and the first one's entry is lost. A second case: on an empty history, submit blank feedback twice; the first stores `[""]`, the second starts again from `[]`, stops early and stores `[""]` | every submission is appended to the current history: in the first case the history keeps both entries; in the second it becomes `["", ""]` and `". "` is sent | not executed | App.FeedbackHandler, App.StaleSecondSubmitLost, App.BlankResubmitStaysStale | App.GenerateCocktailWithUserFeedback, App.StepInvariants |

=== FILE: app.dfy ===
/** The application shell (src/App.tsx): the state it keeps and the transitions its buttons
    trigger. An asynchronous handler is modelled by the state it shows while waiting
    (`pending`, right after the loading flag is raised) and the state it leaves behind
    (`final`). */
module App {
  import opened Types
  import opened Strings
  import opened CocktailDb
  import opened OpenAi
  import Settings
  import Picker

  datatype AppState = AppState(
    configuration: Configuration,
    mood: string,
    selectedIngredients: seq<string>,
    generatedCocktail: string,
    loading: bool,
    showAISettings: bool,
    improveSection: bool,
    previousUserFeedback: seq<string>,
    userFeedback: string,
    cocktails: seq<Drink>,
    cocktailRecommendation: Recommendation)

  datatype Run = Run(pending: AppState, final: AppState)

  const DefaultTemperature: real := 0.5
  const DefaultMaxTokens: int := 256
  const DefaultModel: string := "gpt-4o-mini"

  /** The state at start-up. `envKey` is the key configured in the build environment, or
      `""` when there is none. */
  function Initial(envKey: string): (s: AppState)
    ensures Settings.InRange(s.configuration) && s.configuration.model in Settings.Models
    ensures s.configuration.apiKey == envKey && s.configuration.apiKeyInput == ""
    ensures !s.loading && !s.showAISettings && !s.improveSection
    ensures s.selectedIngredients == Picker.DefaultIngredients
  {
    AppState(Configuration(envKey, "", DefaultTemperature, DefaultMaxTokens, DefaultModel),
             "", Picker.DefaultIngredients, "", false, false, false, [], "", [], EmptyRecommendation)
  }

  const HowdyHead: string := "\U{1F378} Howdy! \n\n        "
  const HowdyMiddle: string := " \n\n        Here is the recipe for your perfect cocktail: \n\n        "

  /** The text shown for a recommendation: the greeting, then the reason, then the recipe
      after its own introduction. */
  function Howdy(rec: Recommendation): (r: string)
    ensures |r| == |HowdyHead| + |rec.reason| + |HowdyMiddle| + |rec.recipe|
    ensures r[..|HowdyHead|] == HowdyHead
    ensures r[|HowdyHead|..|HowdyHead| + |rec.reason|] == rec.reason
    ensures r[|r| - |rec.recipe|..] == rec.recipe
  {
    HowdyHead + rec.reason + HowdyMiddle + rec.recipe
  }

  lemma HowdyMentions(rec: Recommendation)
    ensures Contains(Howdy(rec), rec.reason) && Contains(Howdy(rec), rec.recipe)
  {
    ContainsMiddle(HowdyHead, rec.reason, HowdyMiddle + rec.recipe);
    assert HowdyHead + rec.reason + (HowdyMiddle + rec.recipe) == Howdy(rec);
    ContainsMiddle(HowdyHead + rec.reason + HowdyMiddle, rec.recipe, "");
    assert HowdyHead + rec.reason + HowdyMiddle + rec.recipe + "" == Howdy(rec);
  }

  /** The fields neither flow touches. */
  predicate SameInputs(s: AppState, t: AppState) {
    && t.configuration == s.configuration && t.mood == s.mood
    && t.selectedIngredients == s.selectedIngredients && t.userFeedback == s.userFeedback
    && t.showAISettings == s.showAISettings
  }

  /** The body of `generateCocktail` after its input check, from raising the loading flag
      to lowering it, given the drink list the selection yields: the list is stored, and,
      when a key is configured and the model answers, the recommendation is stored, shown,
      and the feedback section enabled. */
  function Craft(s: AppState, list: seq<Drink>,
                 chat: ChatRequest -> ChatReply, lookup: string -> LookupReply): (f: AppState)
    ensures !f.loading && f.cocktails == list
    ensures SameInputs(s, f) && f.previousUserFeedback == s.previousUserFeedback
    ensures f.improveSection != s.improveSection ==> f.improveSection
  {
    var fetched := s.(cocktails := list, loading := false);
    var outcome := if s.configuration.apiKey == "" then Threw
                   else GetRecommendedCocktailV0(s.mood, list, s.configuration, chat, lookup);
    Recommended(fetched, outcome)
  }

  /** A recommendation stored and shown: the text shown mentions its reason and recipe. */
  function Shown(s: AppState, rec: Recommendation): (f: AppState)
    ensures f.cocktailRecommendation == rec
    ensures Contains(f.generatedCocktail, rec.reason) && Contains(f.generatedCocktail, rec.recipe)
    ensures SameInputs(s, f) && f.previousUserFeedback == s.previousUserFeedback
    ensures f.loading == s.loading && f.cocktails == s.cocktails && f.improveSection == s.improveSection
  {
    HowdyMentions(rec);
    s.(cocktailRecommendation := rec, generatedCocktail := Howdy(rec))
  }

  /** Storing the outcome of the model call: nothing on failure; otherwise the recommendation
      is shown and the feedback section enabled. */
  function Recommended(s: AppState, outcome: Outcome): (f: AppState)
    ensures outcome.Threw? ==> f == s
    ensures outcome.Returned? ==> f == Shown(s, outcome.recommendation).(improveSection := true)
    ensures SameInputs(s, f) && f.previousUserFeedback == s.previousUserFeedback
    ensures f.loading == s.loading && f.cocktails == s.cocktails
    ensures f.improveSection != s.improveSection ==> f.improveSection
  {
    match outcome
    case Threw => s
    case Returned(rec) => Shown(s, rec).(improveSection := true)
  }

  /** `generateCocktail`. Without a mood or without ingredients nothing happens, not even the
      loading flag. Otherwise the flag is raised while the drinks and the recommendation are
      fetched, and lowered on every exit. */
  function GenerateCocktail(s: AppState, search: string -> SearchReply,
                            chat: ChatRequest -> ChatReply, lookup: string -> LookupReply): (r: Run)
    ensures (s.mood == "" || |s.selectedIngredients| == 0) <==> (r.pending == s && r.final == s)
    ensures !(s.mood == "" || |s.selectedIngredients| == 0) ==> r.pending == s.(loading := true) && !r.final.loading
    ensures !(s.mood == "" || |s.selectedIngredients| == 0) ==>
              r.final.cocktails == GetCocktailListBasedOnIngredients(s.selectedIngredients, search)
    ensures SameInputs(s, r.final) && r.final.previousUserFeedback == s.previousUserFeedback
  {
    if s.mood == "" || |s.selectedIngredients| == 0 then Run(s, s)
    else Run(s.(loading := true), Craft(s, GetCocktailListBasedOnIngredients(s.selectedIngredients, search), chat, lookup))
  }

  /** Without a key the drink list is stored but nothing is recommended and the feedback
      section is left as it was. A failed model call ends the same way. */
  lemma GenerateWithoutRecommendation(s: AppState, search: string -> SearchReply,
                                      chat: ChatRequest -> ChatReply, lookup: string -> LookupReply)
    requires s.mood != "" && |s.selectedIngredients| > 0
    requires s.configuration.apiKey == ""
             || !chat(V0Request(s.mood, GetCocktailListBasedOnIngredients(s.selectedIngredients, search), s.configuration)).ChatAnswer?
    ensures GenerateCocktail(s, search, chat, lookup).final
         == s.(cocktails := GetCocktailListBasedOnIngredients(s.selectedIngredients, search), loading := false)
    ensures GenerateCocktail(s, search, chat, lookup).final.improveSection == s.improveSection
  {
  }

  /** With a key and an answer from the model, the recommendation is the model's `idDrink` and
      `reason` with the recipe looked up for that drink; the text shown mentions the reason
      and the recipe; the feedback section is enabled. */
  lemma GenerateSucceeds(s: AppState, search: string -> SearchReply,
                         chat: ChatRequest -> ChatReply, lookup: string -> LookupReply)
    requires s.mood != "" && |s.selectedIngredients| > 0 && s.configuration.apiKey != ""
    requires chat(V0Request(s.mood, GetCocktailListBasedOnIngredients(s.selectedIngredients, search), s.configuration)).ChatAnswer?
    ensures var a := chat(V0Request(s.mood, GetCocktailListBasedOnIngredients(s.selectedIngredients, search), s.configuration));
            var f := GenerateCocktail(s, search, chat, lookup).final;
            && f.cocktailRecommendation == Recommendation(a.idDrink, a.reason, GetCocktailRecipe(lookup(a.idDrink)))
            && f.improveSection && !f.loading
            && Contains(f.generatedCocktail, a.reason)
            && Contains(f.generatedCocktail, GetCocktailRecipe(lookup(a.idDrink)))
  {
    var list := GetCocktailListBasedOnIngredients(s.selectedIngredients, search);
    var out := GetRecommendedCocktailV0(s.mood, list, s.configuration, chat, lookup);
    HowdyMentions(out.recommendation);
  }

  /** The feedback history after one more submission: the trimmed feedback appended to the
      history the handler starts from. */
  function NextHistory(history: seq<string>, feedback: string): seq<string> {
    history + [Trim(feedback)]
  }

  /** The joined history is empty exactly when the history the handler starts from is empty
      and the feedback is blank. */
  lemma JoinedFeedbackEmptyIff(history: seq<string>, feedback: string)
    ensures Join(NextHistory(history, feedback), ". ") == "" <==> (history == [] && AllWhitespace(feedback))
  {
    JoinEmptyIff(NextHistory(history, feedback), ". ");
  }

  /** The values `generateCocktailWithUserFeedback` is memoised on: React hands out a new
      handler, closing over the state of that render, only when one of these changed. */
  function HandlerDeps(s: AppState): (string, string, Configuration, string, seq<Drink>) {
    (s.userFeedback, s.generatedCocktail, s.configuration, s.mood, s.cocktails)
  }

  /** `generateCocktailWithUserFeedback` as written: `captured` is the feedback history the
      memoised handler closed over, which need not be the current one, because the history
      is not among the values it is memoised on. The flag is raised, the trimmed feedback is
      appended to `captured` and stored whatever it is, and when the joined history is empty
      the handler stops there. Otherwise the model is asked again with the joined history and
      the text shown so far, and its answer (or the empty recommendation on failure) is stored
      and shown. The flag is lowered on every exit. */
  function FeedbackHandler(s: AppState, captured: seq<string>, chat: ChatRequest -> ChatReply,
                           lookup: string -> LookupReply): (r: Run)
    ensures r.pending == s.(loading := true) && !r.final.loading
    ensures r.final.previousUserFeedback == captured + [Trim(s.userFeedback)]
    ensures SameInputs(s, r.final) && r.final.cocktails == s.cocktails
            && r.final.improveSection == s.improveSection
    ensures (captured == [] && AllWhitespace(s.userFeedback)) ==>
              r.final.generatedCocktail == s.generatedCocktail
              && r.final.cocktailRecommendation == s.cocktailRecommendation
    ensures !(captured == [] && AllWhitespace(s.userFeedback)) ==>
              Contains(r.final.generatedCocktail, r.final.cocktailRecommendation.reason)
              && Contains(r.final.generatedCocktail, r.final.cocktailRecommendation.recipe)
  {
    var busy := s.(loading := true);
    var history := NextHistory(captured, s.userFeedback);
    var feedback := Join(history, ". ");
    var settled := s.(previousUserFeedback := history, loading := false);
    JoinedFeedbackEmptyIff(captured, s.userFeedback);
    if feedback == "" then Run(busy, settled)
    else
      var rec := GetRecommendedCocktailV1WithUserFeedback(
                   s.mood, s.cocktails, feedback, s.configuration, s.generatedCocktail, chat, lookup);
      Run(busy, Shown(settled, rec))
  }

  /** `generateCocktailWithUserFeedback` as evidently intended: the handler sees the current
      feedback history, so every submission is appended to it. */
  function GenerateCocktailWithUserFeedback(s: AppState, chat: ChatRequest -> ChatReply,
                                            lookup: string -> LookupReply): (r: Run)
    ensures r.pending == s.(loading := true) && !r.final.loading
    ensures r.final.previousUserFeedback == s.previousUserFeedback + [Trim(s.userFeedback)]
    ensures SameInputs(s, r.final) && r.final.cocktails == s.cocktails
            && r.final.improveSection == s.improveSection
    ensures (s.previousUserFeedback == [] && AllWhitespace(s.userFeedback)) ==>
              r.final.generatedCocktail == s.generatedCocktail
              && r.final.cocktailRecommendation == s.cocktailRecommendation
    ensures !(s.previousUserFeedback == [] && AllWhitespace(s.userFeedback)) ==>
              Contains(r.final.generatedCocktail, r.final.cocktailRecommendation.reason)
              && Contains(r.final.generatedCocktail, r.final.cocktailRecommendation.recipe)
  {
    FeedbackHandler(s, s.previousUserFeedback, chat, lookup)
  }

  /** Unless the handler stops early, the recommendation stored is the model's answer to the
      request carrying the joined feedback and the text shown so far. */
  lemma FeedbackFlowStores(s: AppState, captured: seq<string>, chat: ChatRequest -> ChatReply,
                           lookup: string -> LookupReply)
    requires !(captured == [] && AllWhitespace(s.userFeedback))
    ensures FeedbackHandler(s, captured, chat, lookup).final.cocktailRecommendation
         == GetRecommendedCocktailV1WithUserFeedback(s.mood, s.cocktails, Join(NextHistory(captured, s.userFeedback), ". "),
                                                     s.configuration, s.generatedCocktail, chat, lookup)
  {
    JoinedFeedbackEmptyIff(captured, s.userFeedback);
  }

  /** What the feedback flow asks the model: the text shown so far verbatim as the
      assistant's turn, and a user turn quoting the whole joined history. */
  lemma FeedbackFlowRequest(s: AppState, captured: seq<string>)
    ensures var req := FeedbackRequest(s.mood, s.cocktails, Join(NextHistory(captured, s.userFeedback), ". "),
                                       s.configuration, s.generatedCocktail);
            && |req.messages| == 3
            && req.messages[1] == Message(Assistant, s.generatedCocktail)
            && Contains(req.messages[2].content, "\"" + Join(NextHistory(captured, s.userFeedback), ". ") + "\"")
            && req.model == s.configuration.model && req.temperature == s.configuration.temperature
            && req.maxTokens == s.configuration.maxTokens
  {
  }

  /** When a submission leaves every value the handler is memoised on unchanged, the handler
      is not renewed, so as written the next submission starts again from the history the
      first one started from: the first submission's entry is overwritten. Evidently
      intended is that it stays, as it does in the corrected handler. */
  lemma StaleSecondSubmitLost(s: AppState, chat: ChatRequest -> ChatReply, lookup: string -> LookupReply)
    requires HandlerDeps(FeedbackHandler(s, s.previousUserFeedback, chat, lookup).final) == HandlerDeps(s)
    ensures var u := FeedbackHandler(s, s.previousUserFeedback, chat, lookup).final;
            && FeedbackHandler(u, s.previousUserFeedback, chat, lookup).final.previousUserFeedback
               == u.previousUserFeedback
            && |GenerateCocktailWithUserFeedback(u, chat, lookup).final.previousUserFeedback|
               == |s.previousUserFeedback| + 2
  {
  }

  /** The input that shows it: a blank submission on an empty history stops early and
      changes none of the memoised values, so as written a second blank submission stops
      early too and the history stays `[""]`; the corrected handler joins `["", ""]` into
      `". "` and asks the model. */
  lemma BlankResubmitStaysStale(s: AppState, chat: ChatRequest -> ChatReply, lookup: string -> LookupReply)
    requires s.previousUserFeedback == [] && AllWhitespace(s.userFeedback)
    ensures var u := FeedbackHandler(s, [], chat, lookup).final;
            && HandlerDeps(u) == HandlerDeps(s)
            && FeedbackHandler(u, [], chat, lookup).final.previousUserFeedback == [""]
            && FeedbackHandler(u, [], chat, lookup).final.cocktailRecommendation == s.cocktailRecommendation
            && GenerateCocktailWithUserFeedback(u, chat, lookup).final.previousUserFeedback == ["", ""]
            && GenerateCocktailWithUserFeedback(u, chat, lookup).final.cocktailRecommendation
               == GetRecommendedCocktailV1WithUserFeedback(s.mood, s.cocktails, ". ", s.configuration,
                                                           s.generatedCocktail, chat, lookup)
  {
    var u := FeedbackHandler(s, [], chat, lookup).final;
    assert u.userFeedback == s.userFeedback;
    BlankAfterBlank(u.userFeedback);
    FeedbackFlowStores(u, [""], chat, lookup);
  }

  lemma BlankAfterBlank(feedback: string)
    requires AllWhitespace(feedback)
    ensures NextHistory([], feedback) == [""] && NextHistory([""], feedback) == ["", ""]
    ensures Join(NextHistory([""], feedback), ". ") == ". "
  {
    assert Trim(feedback) == "";
  }

  /** `resetForm`: clears the mood, the selection, the text shown, the feedback section and
      the feedback being typed; keeps the configuration, the drink list, the recommendation
      and the feedback history. */
  function ResetForm(s: AppState): (r: AppState)
    ensures r.mood == "" && r.selectedIngredients == [] && r.generatedCocktail == ""
            && !r.improveSection && r.userFeedback == ""
    ensures r.configuration == s.configuration && r.cocktails == s.cocktails
            && r.cocktailRecommendation == s.cocktailRecommendation
            && r.previousUserFeedback == s.previousUserFeedback
            && r.loading == s.loading && r.showAISettings == s.showAISettings
  {
    s.(mood := "", selectedIngredients := [], generatedCocktail := "", improveSection := false, userFeedback := "")
  }

  /** `toggleSettings`: flips the panel's visibility and nothing else. */
  function ToggleSettings(s: AppState): (r: AppState)
    ensures r.showAISettings == !s.showAISettings
    ensures r.(showAISettings := s.showAISettings) == s
  {
    s.(showAISettings := !s.showAISettings)
  }

  /** Toggling twice restores the page as it was. */
  lemma ToggleTwiceIsIdentity(s: AppState)
    ensures ToggleSettings(ToggleSettings(s)) == s
  {
  }

  /** After a reset, generating does nothing until a mood and ingredients are entered again. */
  lemma GenerateAfterResetIsNoOp(s: AppState, search: string -> SearchReply,
                                 chat: ChatRequest -> ChatReply, lookup: string -> LookupReply)
    ensures GenerateCocktail(ResetForm(s), search, chat, lookup) == Run(ResetForm(s), ResetForm(s))
  {
  }

  /** One user action on the page, with the outside world's answers it meets. */
  datatype Event =
    | MoodTyped(mood: string)
    | SelectionChanged(selection: seq<string>)
    | FeedbackTyped(feedback: string)
    | SettingsEdited(edit: Settings.Edit)
    | CraftClicked(search: string -> SearchReply, chat: ChatRequest -> ChatReply, lookup: string -> LookupReply)
    | FeedbackSubmitted(chat: ChatRequest -> ChatReply, lookup: string -> LookupReply)
    | ResetClicked
    | SettingsToggled

  /** The state after an event has been handled completely. Only the settings panel edits
      the configuration, only a feedback submission extends the history, and only typing
      or a reset changes the mood and the selection. */
  function Step(s: AppState, e: Event): (r: AppState)
    ensures r.configuration != s.configuration ==> e.SettingsEdited?
    ensures r.previousUserFeedback != s.previousUserFeedback ==> e.FeedbackSubmitted?
    ensures r.mood != s.mood ==> e.MoodTyped? || e.ResetClicked?
    ensures r.selectedIngredients != s.selectedIngredients ==> e.SelectionChanged? || e.ResetClicked?
  {
    match e
    case MoodTyped(m) => s.(mood := m)
    case SelectionChanged(sel) => s.(selectedIngredients := sel)
    case FeedbackTyped(f) => s.(userFeedback := f)
    case SettingsEdited(edit) => s.(configuration := Settings.Apply(s.configuration, edit))
    case CraftClicked(search, chat, lookup) => GenerateCocktail(s, search, chat, lookup).final
    case FeedbackSubmitted(chat, lookup) => GenerateCocktailWithUserFeedback(s, chat, lookup).final
    case ResetClicked => ResetForm(s)
    case SettingsToggled => ToggleSettings(s)
  }

  function RunAll(s: AppState, es: seq<Event>): AppState
    decreases |es|
  {
    if |es| == 0 then s else RunAll(Step(s, es[0]), es[1..])
  }

  /** The feedback history is `h` with possibly more entries after it. */
  predicate Extends(h: seq<string>, h': seq<string>) {
    |h| <= |h'| && h'[..|h|] == h
  }

  /** Every handled event keeps the configuration in range, leaves the loading flag down
      and only extends the feedback history. */
  lemma StepInvariants(s: AppState, e: Event)
    requires Settings.InRange(s.configuration) && !s.loading
    ensures Settings.InRange(Step(s, e).configuration)
    ensures !Step(s, e).loading
    ensures Extends(s.previousUserFeedback, Step(s, e).previousUserFeedback)
  {
    match e
    case SettingsEdited(edit) => Settings.ApplyKeepsRange(s.configuration, edit);
    case FeedbackSubmitted(chat, lookup) =>
      var t := Step(s, e);
      assert t.previousUserFeedback == NextHistory(s.previousUserFeedback, s.userFeedback);
      assert t.previousUserFeedback[..|s.previousUserFeedback|] == s.previousUserFeedback;
    case _ =>
      assert Step(s, e).previousUserFeedback == s.previousUserFeedback;
  }

  /** Whatever the user does and whatever the services answer, the configuration stays within
      its ranges, the loading flag is down once each handler is done, and the feedback history
      only grows. */
  lemma {:induction false} RunAllInvariants(s: AppState, es: seq<Event>)
    requires Settings.InRange(s.configuration) && !s.loading
    ensures Settings.InRange(RunAll(s, es).configuration)
    ensures !RunAll(s, es).loading
    ensures Extends(s.previousUserFeedback, RunAll(s, es).previousUserFeedback)
    decreases |es|
  {
    if |es| > 0 {
      var t := Step(s, es[0]);
      StepInvariants(s, es[0]);
      RunAllInvariants(t, es[1..]);
      var u := RunAll(t, es[1..]);
      assert u.previousUserFeedback[..|s.previousUserFeedback|]
          == u.previousUserFeedback[..|t.previousUserFeedback|][..|s.previousUserFeedback|];
    }
  }
}

=== FILE: cocktaildb.dfy ===
/** The cocktail-database client (src/api/cocktaildb.ts): per-ingredient search,
    the union of several searches, de-duplication by `idDrink`, and the recipe text.
    Every HTTP exchange is a parameter: `search(i)` is what the filter endpoint answered
    for ingredient `i`, a `LookupReply` is what the lookup endpoint answered. */
module CocktailDb {
  import opened Types
  import opened Strings

  /** Outcome of one filter request. `SearchFailed` covers a network error, a non-OK status
      and an unreadable body; `SearchOk(None)` is a body whose `drinks` is `null`. */
  datatype SearchReply = SearchFailed | SearchOk(drinks: Option<seq<Drink>>)

  /** Outcome of one lookup request, with the same reading as `SearchReply`. */
  datatype LookupReply = LookupFailed | LookupOk(drinks: Option<seq<Drink>>)

  /** `searchByIngredient`: the drinks of a successful reply, `[]` otherwise. */
  function SearchByIngredient(ingredient: string, search: string -> SearchReply): (r: seq<Drink>)
    ensures search(ingredient).SearchOk? && search(ingredient).drinks.Some? ==> r == search(ingredient).drinks.value
    ensures !(search(ingredient).SearchOk? && search(ingredient).drinks.Some?) ==> r == []
  {
    match search(ingredient)
    case SearchFailed => []
    case SearchOk(drinks) => if drinks.Some? then drinks.value else []
  }

  /** `searchByMultipleIngredients`: the per-ingredient results, concatenated in ingredient order. */
  function SearchByMultipleIngredients(ingredients: seq<string>, search: string -> SearchReply): (r: seq<Drink>)
    ensures |ingredients| == 0 ==> r == []
    ensures forall d :: d in r ==> exists i :: i in ingredients && d in SearchByIngredient(i, search)
  {
    if |ingredients| == 0 then []
    else
      var rest := SearchByMultipleIngredients(ingredients[1..], search);
      assert forall i :: i in ingredients[1..] ==> i in ingredients;
      SearchByIngredient(ingredients[0], search) + rest
  }

  /** The concatenation splits along any split of the ingredient list. */
  lemma {:induction false} SearchByMultipleAppend(xs: seq<string>, ys: seq<string>, search: string -> SearchReply)
    ensures SearchByMultipleIngredients(xs + ys, search)
         == SearchByMultipleIngredients(xs, search) + SearchByMultipleIngredients(ys, search)
  {
    if |xs| > 0 {
      assert (xs + ys)[0] == xs[0];
      assert (xs + ys)[1..] == xs[1..] + ys;
      SearchByMultipleAppend(xs[1..], ys, search);
    } else {
      assert xs + ys == ys;
    }
  }

  /** A drink is in the union exactly when some ingredient's search returned it. */
  lemma {:induction false} SearchByMultipleMembers(ingredients: seq<string>, search: string -> SearchReply, d: Drink)
    ensures d in SearchByMultipleIngredients(ingredients, search)
        <==> exists k :: 0 <= k < |ingredients| && d in SearchByIngredient(ingredients[k], search)
  {
    if |ingredients| > 0 {
      SearchByMultipleMembers(ingredients[1..], search, d);
      if d in SearchByIngredient(ingredients[0], search) {
        assert 0 < |ingredients| && d in SearchByIngredient(ingredients[0], search);
      }
      if exists k :: 0 <= k < |ingredients| && d in SearchByIngredient(ingredients[k], search) {
        var k :| 0 <= k < |ingredients| && d in SearchByIngredient(ingredients[k], search);
        if k > 0 {
          assert ingredients[1..][k - 1] == ingredients[k];
        }
      }
    }
  }

  /** A failed search, or one whose `drinks` is `null` or empty, contributes nothing to the union. */
  lemma SearchByMultipleSkipsEmpty(xs: seq<string>, i: string, ys: seq<string>, search: string -> SearchReply)
    requires search(i).SearchFailed? || search(i) == SearchOk(None) || search(i) == SearchOk(Some([]))
    ensures SearchByMultipleIngredients(xs + [i] + ys, search)
         == SearchByMultipleIngredients(xs + ys, search)
  {
    SearchByMultipleAppend(xs + [i], ys, search);
    SearchByMultipleAppend(xs, [i], search);
    SearchByMultipleAppend(xs, ys, search);
    assert SearchByMultipleIngredients([i], search) == [];
  }

  /** With a single ingredient both branches of the source compute the same list. */
  lemma SearchSingleAgrees(i: string, search: string -> SearchReply)
    ensures SearchByMultipleIngredients([i], search) == SearchByIngredient(i, search)
  {
    assert SearchByMultipleIngredients([i], search) == SearchByIngredient(i, search) + [];
  }

  // ---------------------------------------------------------------------------
  // De-duplication by `idDrink`, as `new Map(drinks.map(d => [d.idDrink, d])).values()`.

  function Ids(ds: seq<Drink>): (r: seq<string>)
    ensures |r| == |ds| && forall k :: 0 <= k < |ds| ==> r[k] == ds[k].idDrink
  {
    seq(|ds|, k requires 0 <= k < |ds| => ds[k].idDrink)
  }

  predicate DistinctIds(ds: seq<Drink>) {
    forall i, j :: 0 <= i < j < |ds| ==> ds[i].idDrink != ds[j].idDrink
  }

  /** The index of the first drink with identifier `id`, if any. */
  function Position(ds: seq<Drink>, id: string): (p: Option<nat>)
    ensures p.Some? ==> p.value < |ds| && ds[p.value].idDrink == id
                        && forall k :: 0 <= k < p.value ==> ds[k].idDrink != id
    ensures p.None? <==> forall k :: 0 <= k < |ds| ==> ds[k].idDrink != id
  {
    if |ds| == 0 then None
    else if ds[0].idDrink == id then Some(0)
    else match Position(ds[1..], id)
      case None => None
      case Some(k) => Some(k + 1)
  }

  /** `Position` is determined by the identifiers alone. */
  lemma PositionSameIds(a: seq<Drink>, b: seq<Drink>, id: string)
    requires Ids(a) == Ids(b)
    ensures Position(a, id) == Position(b, id)
  {
    assert |a| == |Ids(a)| == |b|;
    assert forall k :: 0 <= k < |a| ==> a[k].idDrink == Ids(a)[k] == b[k].idDrink;
  }

  /** A first position is determined by its defining property. */
  lemma PositionIs(ds: seq<Drink>, id: string, k: nat)
    requires k < |ds| && ds[k].idDrink == id
    requires forall j :: 0 <= j < k ==> ds[j].idDrink != id
    ensures Position(ds, id) == Some(k)
  {
    var p := Position(ds, id);
    assert p.Some?;
    assert p.value <= k;
  }

  /** Appending a drink keeps every earlier first position. */
  lemma PositionSnoc(ds: seq<Drink>, d: Drink, id: string)
    ensures Position(ds + [d], id)
         == if Position(ds, id).Some? then Position(ds, id)
            else if d.idDrink == id then Some(|ds|) else None
  {
    var e := ds + [d];
    var q := Position(ds, id);
    if q.Some? {
      assert e[q.value] == ds[q.value];
      assert forall j :: 0 <= j < q.value ==> e[j] == ds[j];
      PositionIs(e, id, q.value);
    } else {
      assert forall k :: 0 <= k < |ds| ==> e[k] == ds[k];
      if d.idDrink == id {
        PositionIs(e, id, |ds|);
      }
    }
  }

  /** `PositionSnoc` for every identifier at once. */
  lemma PositionsSnoc(ds: seq<Drink>, d: Drink)
    ensures forall id :: Position(ds + [d], id)
                      == if Position(ds, id).Some? then Position(ds, id)
                         else if d.idDrink == id then Some(|ds|) else None
  {
    forall id ensures Position(ds + [d], id)
                   == if Position(ds, id).Some? then Position(ds, id)
                      else if d.idDrink == id then Some(|ds|) else None {
      PositionSnoc(ds, d, id);
    }
  }

  /** Overwriting a record with one of the same identifier moves no first position. */
  lemma PositionsSet(ds: seq<Drink>, k: nat, d: Drink)
    requires k < |ds| && ds[k].idDrink == d.idDrink
    ensures forall id :: Position(ds[k := d], id) == Position(ds, id)
  {
    assert Ids(ds[k := d]) == Ids(ds);
    forall id ensures Position(ds[k := d], id) == Position(ds, id) {
      PositionSameIds(ds[k := d], ds, id);
    }
  }

  /** Identifiers in order of first occurrence, each once: the key order of the `Map`. */
  function FirstIds(ds: seq<Drink>): seq<string>
    decreases |ds|
  {
    if |ds| == 0 then []
    else
      var f := FirstIds(ds[..|ds| - 1]);
      if ds[|ds| - 1].idDrink in f then f else f + [ds[|ds| - 1].idDrink]
  }

  /** The last drink with identifier `id`: the value the `Map` ends up holding for that key. */
  function LastWith(ds: seq<Drink>, id: string): (r: Option<Drink>)
    ensures r.Some? ==> r.value in ds && r.value.idDrink == id
    ensures r.Some? ==> exists k :: LastAt(ds, k, id) && ds[k] == r.value
    ensures r.None? <==> forall k :: 0 <= k < |ds| ==> ds[k].idDrink != id
  {
    if |ds| == 0 then None
    else if ds[|ds| - 1].idDrink == id then Some(ds[|ds| - 1])
    else
      var pre := ds[..|ds| - 1];
      var r := LastWith(pre, id);
      assert forall k :: 0 <= k < |ds| - 1 ==> pre[k] == ds[k];
      assert r.Some? ==> exists k :: LastAt(ds, k, id) && ds[k] == r.value by {
        if r.Some? {
          var k :| LastAt(pre, k, id) && pre[k] == r.value;
          LastAtExtends(ds, k, id);
        }
      }
      r
  }

  /** `k` is the last index of a drink with identifier `id`. */
  predicate LastAt(ds: seq<Drink>, k: int, id: string) {
    0 <= k < |ds| && ds[k].idDrink == id && forall j :: k < j < |ds| ==> ds[j].idDrink != id
  }

  lemma LastAtExtends(ds: seq<Drink>, k: int, id: string)
    requires |ds| > 0 && ds[|ds| - 1].idDrink != id && LastAt(ds[..|ds| - 1], k, id)
    ensures LastAt(ds, k, id) && ds[k] == ds[..|ds| - 1][k]
  {
    assert forall j :: k < j < |ds| - 1 ==> ds[j] == ds[..|ds| - 1][j];
  }

  /** `Map.set` on a key-ordered list: overwrite the record in place when the key is
      present, append it otherwise. */
  function MapSet(r: seq<Drink>, d: Drink): seq<Drink> {
    match Position(r, d.idDrink)
    case Some(k) => r[k := d]
    case None => r + [d]
  }

  /** The `Map` built by inserting the drinks left to right, read back as its values. */
  function Dedup(ds: seq<Drink>): seq<Drink>
    decreases |ds|
  {
    if |ds| == 0 then [] else MapSet(Dedup(ds[..|ds| - 1]), ds[|ds| - 1])
  }

  /** The first-occurrence list holds exactly the identifiers of `ds`, and is no longer. */
  lemma {:induction false} FirstIdsMembers(ds: seq<Drink>)
    ensures forall id :: id in FirstIds(ds) <==> Position(ds, id).Some?
    ensures |FirstIds(ds)| <= |ds|
    decreases |ds|
  {
    if |ds| > 0 {
      var pre := ds[..|ds| - 1];
      var d := ds[|ds| - 1];
      assert ds == pre + [d];
      FirstIdsMembers(pre);
      PositionsSnoc(pre, d);
    }
  }

  /** The first-occurrence list is ordered by first position. */
  lemma {:induction false} FirstIdsOrdered(ds: seq<Drink>)
    ensures forall i, j :: 0 <= i < j < |FirstIds(ds)| ==>
              Position(ds, FirstIds(ds)[i]).Some? && Position(ds, FirstIds(ds)[j]).Some? &&
              Position(ds, FirstIds(ds)[i]).value < Position(ds, FirstIds(ds)[j]).value
    decreases |ds|
  {
    if |ds| > 0 {
      var pre := ds[..|ds| - 1];
      var d := ds[|ds| - 1];
      assert ds == pre + [d];
      FirstIdsOrdered(pre);
      FirstIdsMembers(pre);
      PositionsSnoc(pre, d);
      var f := FirstIds(pre);
      var g := FirstIds(ds);
      assert g == if d.idDrink in f then f else f + [d.idDrink];
      forall i, j | 0 <= i < j < |g|
        ensures Position(ds, g[i]).Some? && Position(ds, g[j]).Some? && Position(ds, g[i]).value < Position(ds, g[j]).value
      {
        assert g[i] == f[i] && g[i] in f;
        if j < |f| {
          assert g[j] == f[j] && g[j] in f;
        } else {
          assert g[j] == d.idDrink && d.idDrink !in f;
        }
      }
    } else {
      assert FirstIds(ds) == [];
    }
  }

  /** The first-occurrence list has no repeats, holds exactly the identifiers of `ds`,
      and lists them by increasing first position. */
  lemma FirstIdsSpec(ds: seq<Drink>)
    ensures forall i, j :: 0 <= i < j < |FirstIds(ds)| ==> FirstIds(ds)[i] != FirstIds(ds)[j]
    ensures forall id :: id in FirstIds(ds) <==> Position(ds, id).Some?
    ensures forall i, j :: 0 <= i < j < |FirstIds(ds)| ==>
              Position(ds, FirstIds(ds)[i]).value < Position(ds, FirstIds(ds)[j]).value
    ensures |FirstIds(ds)| <= |ds|
  {
    FirstIdsMembers(ds);
    FirstIdsOrdered(ds);
  }

  /** The de-duplicated list's identifiers are the first-occurrence list. */
  lemma {:induction false} DedupIds(ds: seq<Drink>)
    ensures Ids(Dedup(ds)) == FirstIds(ds)
    decreases |ds|
  {
    if |ds| > 0 {
      var pre := ds[..|ds| - 1];
      var d := ds[|ds| - 1];
      var r := Dedup(pre);
      DedupIds(pre);
      match Position(r, d.idDrink)
      case Some(k) =>
        assert d.idDrink in Ids(r);
        assert Ids(r[k := d]) == Ids(r);
      case None =>
        assert d.idDrink !in Ids(r);
        assert Ids(r + [d]) == Ids(r) + [d.idDrink];
    }
  }

  /** After de-duplication no two drinks share an identifier. */
  lemma DedupDistinct(ds: seq<Drink>)
    ensures DistinctIds(Dedup(ds))
  {
    DedupIds(ds);
    FirstIdsSpec(ds);
    var r := Dedup(ds);
    forall i, j | 0 <= i < j < |r| ensures r[i].idDrink != r[j].idDrink {
      assert r[i].idDrink == Ids(r)[i] && r[j].idDrink == Ids(r)[j];
    }
  }

  /** Every kept record is the last record in `ds` carrying its identifier. */
  lemma {:induction false} DedupKeepsLast(ds: seq<Drink>)
    ensures forall k :: 0 <= k < |Dedup(ds)| ==> LastWith(ds, Dedup(ds)[k].idDrink) == Some(Dedup(ds)[k])
    decreases |ds|
  {
    if |ds| > 0 {
      var pre := ds[..|ds| - 1];
      var d := ds[|ds| - 1];
      var r := Dedup(pre);
      DedupKeepsLast(pre);
      DedupDistinct(pre);
      assert ds[..|ds| - 1] == pre;
      var out := Dedup(ds);
      forall k | 0 <= k < |out| ensures LastWith(ds, out[k].idDrink) == Some(out[k]) {
        if out[k].idDrink != d.idDrink {
          match Position(r, d.idDrink)
          case Some(p) => assert out[k] == r[k];
          case None => assert out[k] == r[k];
        }
      }
    }
  }

  /** A list whose identifiers are already distinct is left as it is. */
  lemma {:induction false} DedupOfDistinct(ds: seq<Drink>)
    requires DistinctIds(ds)
    ensures Dedup(ds) == ds
    decreases |ds|
  {
    if |ds| > 0 {
      var pre := ds[..|ds| - 1];
      DedupOfDistinct(pre);
      assert Position(pre, ds[|ds| - 1].idDrink).None?;
      assert pre + [ds[|ds| - 1]] == ds;
    }
  }

  /** De-duplication is idempotent. */
  lemma DedupIdempotent(ds: seq<Drink>)
    ensures Dedup(Dedup(ds)) == Dedup(ds)
  {
    DedupDistinct(ds);
    DedupOfDistinct(Dedup(ds));
  }

  /** De-duplication never lengthens the list, keeps only drinks of `ds`, and keeps
      every identifier of `ds`. */
  lemma DedupBounds(ds: seq<Drink>)
    ensures |Dedup(ds)| <= |ds|
    ensures forall d :: d in Dedup(ds) ==> d in ds
    ensures forall k :: 0 <= k < |ds| ==> ds[k].idDrink in Ids(Dedup(ds))
  {
    DedupIds(ds);
    FirstIdsSpec(ds);
    DedupKeepsLast(ds);
    assert |Dedup(ds)| == |Ids(Dedup(ds))|;
    forall d | d in Dedup(ds) ensures d in ds {
      var k :| 0 <= k < |Dedup(ds)| && Dedup(ds)[k] == d;
    }
    forall k | 0 <= k < |ds| ensures ds[k].idDrink in Ids(Dedup(ds)) {
      assert Position(ds, ds[k].idDrink).Some?;
    }
  }

  /** The `Map` construction as the source runs it: one pass over the drinks with a
      key index. The result is keyed in first-occurrence order, holds each key's last
      record, and repeats no key. */
  method UniqueDrinks(ds: seq<Drink>) returns (out: seq<Drink>)
    ensures Ids(out) == FirstIds(ds)
    ensures DistinctIds(out)
    ensures forall k :: 0 <= k < |out| ==> LastWith(ds, out[k].idDrink) == Some(out[k])
  {
    var index: map<string, nat> := map[];
    out := [];
    var i := 0;
    while i < |ds|
      invariant 0 <= i <= |ds|
      invariant out == Dedup(ds[..i])
      invariant forall id :: id in index <==> Position(out, id).Some?
      invariant forall id :: id in index ==> index[id] == Position(out, id).value
    {
      var d := ds[i];
      DedupPrefixStep(ds, i);
      if d.idDrink in index {
        var k := index[d.idDrink];
        PositionsSet(out, k, d);
        out := out[k := d];
      } else {
        PositionsSnoc(out, d);
        index := index[d.idDrink := |out|];
        out := out + [d];
      }
      i := i + 1;
    }
    assert ds[..|ds|] == ds;
    DedupIds(ds);
    DedupDistinct(ds);
    DedupKeepsLast(ds);
  }

  /** One more drink of the prefix is one more `Map.set`. */
  lemma DedupPrefixStep(ds: seq<Drink>, i: nat)
    requires i < |ds|
    ensures Dedup(ds[..i + 1]) == MapSet(Dedup(ds[..i]), ds[i])
  {
    assert ds[..i + 1] == ds[..i] + [ds[i]];
    DedupSnoc(ds[..i], ds[i]);
  }

  /** `getCocktailListBasedOnIngredients`: no ingredients, no search and no drinks;
      otherwise the union of the searches, de-duplicated by `idDrink`. */
  function GetCocktailListBasedOnIngredients(ingredients: seq<string>, search: string -> SearchReply): (r: seq<Drink>)
    ensures |ingredients| == 0 ==> r == []
    ensures DistinctIds(r)
    ensures forall d :: d in r ==> d in SearchByMultipleIngredients(ingredients, search)
    ensures forall d :: d in SearchByMultipleIngredients(ingredients, search) ==> d.idDrink in Ids(r)
    ensures Ids(r) == FirstIds(SearchByMultipleIngredients(ingredients, search))
    ensures forall k :: 0 <= k < |r| ==> LastWith(SearchByMultipleIngredients(ingredients, search), r[k].idDrink) == Some(r[k])
  {
    if |ingredients| == 0 then []
    else
      var drinks := if |ingredients| == 1 then SearchByIngredient(ingredients[0], search)
                    else SearchByMultipleIngredients(ingredients, search);
      assert |ingredients| == 1 ==> ingredients == [ingredients[0]];
      SearchSingleAgrees(ingredients[0], search);
      assert drinks == SearchByMultipleIngredients(ingredients, search);
      DedupDistinct(drinks);
      DedupBounds(drinks);
      DedupIds(drinks);
      DedupKeepsLast(drinks);
      Dedup(drinks)
  }

  /** The drink list depends on the search service only through the ingredients asked for;
      in particular an empty ingredient list asks for nothing. */
  lemma {:induction false} CocktailListUsesOnlyQueried(ingredients: seq<string>, s1: string -> SearchReply, s2: string -> SearchReply)
    requires forall k :: 0 <= k < |ingredients| ==> s1(ingredients[k]) == s2(ingredients[k])
    ensures GetCocktailListBasedOnIngredients(ingredients, s1) == GetCocktailListBasedOnIngredients(ingredients, s2)
  {
    SameSearchesSameUnion(ingredients, s1, s2);
  }

  lemma {:induction false} SameSearchesSameUnion(ingredients: seq<string>, s1: string -> SearchReply, s2: string -> SearchReply)
    requires forall k :: 0 <= k < |ingredients| ==> s1(ingredients[k]) == s2(ingredients[k])
    ensures SearchByMultipleIngredients(ingredients, s1) == SearchByMultipleIngredients(ingredients, s2)
  {
    if |ingredients| > 0 {
      assert s1(ingredients[0]) == s2(ingredients[0]);
      SameSearchesSameUnion(ingredients[1..], s1, s2);
    }
  }

  /** One insertion step of `Dedup`, for evaluating it on concrete lists. */
  lemma DedupStep(ds: seq<Drink>, i: nat, before: seq<Drink>, p: Option<nat>)
    requires i < |ds| && Dedup(ds[..i]) == before
    requires p.Some? ==> p.value < |before| && before[p.value].idDrink == ds[i].idDrink
                         && forall k :: 0 <= k < p.value ==> before[k].idDrink != ds[i].idDrink
    requires p.None? ==> forall k :: 0 <= k < |before| ==> before[k].idDrink != ds[i].idDrink
    ensures Dedup(ds[..i + 1]) == if p.Some? then before[p.value := ds[i]] else before + [ds[i]]
  {
    assert ds[..i + 1][..i] == ds[..i];
    assert Position(before, ds[i].idDrink) == p;
  }

  /** A drink carrying only an identifier and a name, as in the unit test's mock replies. */
  function Named(id: string, name: string): Drink {
    Drink(id, name, "", "", [])
  }

  function MockSearch(ingredient: string): SearchReply {
    if ingredient == "coffee" then
      SearchOk(Some([Named("1", "Drink1"), Named("2", "Drink2"), Named("4", "Drink4"),
                     Named("5", "Drink5"), Named("6", "Drink6")]))
    else if ingredient == "rum" then
      SearchOk(Some([Named("2", "Drink2"), Named("3", "Drink3"), Named("5", "Drink5")]))
    else SearchFailed
  }

  lemma MockUnion()
    ensures SearchByMultipleIngredients(["coffee", "rum"], MockSearch)
         == [Named("1", "Drink1"), Named("2", "Drink2"), Named("4", "Drink4"), Named("5", "Drink5"),
             Named("6", "Drink6"), Named("2", "Drink2"), Named("3", "Drink3"), Named("5", "Drink5")]
  {
    assert SearchByMultipleIngredients(["rum"], MockSearch) == MockSearch("rum").drinks.value + [];
  }

  lemma DedupSnoc(pre: seq<Drink>, d: Drink)
    ensures Dedup(pre + [d]) == MapSet(Dedup(pre), d)
  {
    assert (pre + [d])[..|pre|] == pre;
  }

  /** Inserting a drink whose key the `Map` first holds at position `k` overwrites that entry. */
  lemma DedupSnocAt(pre: seq<Drink>, d: Drink, k: nat)
    requires k < |Dedup(pre)| && Dedup(pre)[k].idDrink == d.idDrink
    requires forall j :: 0 <= j < k ==> Dedup(pre)[j].idDrink != d.idDrink
    ensures Dedup(pre + [d]) == Dedup(pre)[k := d]
  {
    DedupSnoc(pre, d);
  }

  /** Inserting a drink with a new key appends it. */
  lemma DedupSnocNew(pre: seq<Drink>, d: Drink)
    requires forall j :: 0 <= j < |Dedup(pre)| ==> Dedup(pre)[j].idDrink != d.idDrink
    ensures Dedup(pre + [d]) == Dedup(pre) + [d]
  {
    DedupSnoc(pre, d);
  }

  /** The first five drinks of the test's union have distinct identifiers; the sixth repeats
      drink 2 and overwrites it in place. */
  lemma MockDedupFirstRepeat(d1: Drink, d2: Drink, d4: Drink, d5: Drink, d6: Drink)
    requires d1.idDrink == "1" && d2.idDrink == "2"
    requires d4.idDrink == "4" && d5.idDrink == "5" && d6.idDrink == "6"
    ensures Dedup([d1, d2, d4, d5, d6, d2]) == [d1, d2, d4, d5, d6]
  {
    var five := [d1, d2, d4, d5, d6];
    assert DistinctIds(five);
    DedupOfDistinct(five);
    DedupSnocAt(five, d2, 1);
    assert five + [d2] == [d1, d2, d4, d5, d6, d2];
  }

  /** The seventh drink, 3, is new and is appended. */
  lemma MockDedupNew(d1: Drink, d2: Drink, d3: Drink, d4: Drink, d5: Drink, d6: Drink)
    requires d1.idDrink == "1" && d2.idDrink == "2" && d3.idDrink == "3"
    requires d4.idDrink == "4" && d5.idDrink == "5" && d6.idDrink == "6"
    ensures Dedup([d1, d2, d4, d5, d6, d2, d3]) == [d1, d2, d4, d5, d6, d3]
  {
    var p := [d1, d2, d4, d5, d6, d2];
    MockDedupFirstRepeat(d1, d2, d4, d5, d6);
    DedupSnocNew(p, d3);
    assert p + [d3] == [d1, d2, d4, d5, d6, d2, d3];
  }

  /** The test's union, with the six drinks abstracted to their identifiers. */
  lemma MockDedup(d1: Drink, d2: Drink, d3: Drink, d4: Drink, d5: Drink, d6: Drink)
    requires d1.idDrink == "1" && d2.idDrink == "2" && d3.idDrink == "3"
    requires d4.idDrink == "4" && d5.idDrink == "5" && d6.idDrink == "6"
    ensures Dedup([d1, d2, d4, d5, d6, d2, d3, d5]) == [d1, d2, d4, d5, d6, d3]
  {
    var p := [d1, d2, d4, d5, d6, d2, d3];
    var six := [d1, d2, d4, d5, d6, d3];
    MockDedupNew(d1, d2, d3, d4, d5, d6);
    DedupSnocAt(p, d5, 3);
    assert six[3 := d5] == six;
    assert p + [d5] == [d1, d2, d4, d5, d6, d2, d3, d5];
  }

  /** The unit test's scenario: searching coffee then rum yields six drinks in
      first-occurrence order. */
  lemma CoffeeAndRum()
    ensures var r := GetCocktailListBasedOnIngredients(["coffee", "rum"], MockSearch);
            r == [Named("1", "Drink1"), Named("2", "Drink2"), Named("4", "Drink4"),
                     Named("5", "Drink5"), Named("6", "Drink6"), Named("3", "Drink3")]
  {
    var ingredients := ["coffee", "rum"];
    var union := SearchByMultipleIngredients(ingredients, MockSearch);
    assert GetCocktailListBasedOnIngredients(ingredients, MockSearch) == Dedup(union);
    MockUnion();
    MockDedup(Named("1", "Drink1"), Named("2", "Drink2"), Named("3", "Drink3"),
              Named("4", "Drink4"), Named("5", "Drink5"), Named("6", "Drink6"));
  }

  /** The first-occurrence list of a prefix is a prefix of the whole list's. */
  lemma {:induction false} FirstIdsPrefix(ds: seq<Drink>, i: nat)
    requires i <= |ds|
    ensures |FirstIds(ds[..i])| <= |FirstIds(ds)| && FirstIds(ds)[..|FirstIds(ds[..i])|] == FirstIds(ds[..i])
    decreases |ds|
  {
    if i < |ds| {
      var pre := ds[..|ds| - 1];
      assert pre[..i] == ds[..i];
      FirstIdsPrefix(pre, i);
      var f := FirstIds(pre);
      var g := FirstIds(ds);
      assert g == if ds[|ds| - 1].idDrink in f then f else f + [ds[|ds| - 1].idDrink];
      assert g[..|f|] == f;
      assert g[..|FirstIds(ds[..i])|] == f[..|FirstIds(ds[..i])|];
    } else {
      assert ds[..i] == ds;
    }
  }

  /** At a first occurrence the first-occurrence list grows by that identifier. */
  lemma FirstIdsAtFirst(ds: seq<Drink>, p: nat)
    requires p < |ds| && Position(ds, ds[p].idDrink) == Some(p)
    ensures FirstIds(ds[..p + 1]) == FirstIds(ds[..p]) + [ds[p].idDrink]
  {
    var id := ds[p].idDrink;
    assert ds[..p + 1][..p] == ds[..p];
    FirstIdsMembers(ds[..p]);
    assert Position(ds[..p], id).None? by {
      forall k | 0 <= k < p ensures ds[..p][k].idDrink != id {
        assert ds[..p][k] == ds[k];
      }
    }
  }

  /** A first occurrence's identifier sits in the first-occurrence list right after those of its prefix. */
  lemma FirstIdsIndex(ds: seq<Drink>, p: nat)
    requires p < |ds| && Position(ds, ds[p].idDrink) == Some(p)
    ensures |FirstIds(ds[..p])| < |FirstIds(ds)| && FirstIds(ds)[|FirstIds(ds[..p])|] == ds[p].idDrink
  {
    FirstIdsAtFirst(ds, p);
    FirstIdsPrefix(ds, p + 1);
    var f := FirstIds(ds[..p + 1]);
    assert FirstIds(ds)[..|f|] == f;
    assert f[|FirstIds(ds[..p])|] == ds[p].idDrink;
  }

  /** In a list of distinct identifiers, the drink at `q` is the first with its identifier. */
  lemma DistinctPosition(out: seq<Drink>, q: nat, id: string)
    requires DistinctIds(out) && q < |out| && out[q].idDrink == id
    ensures Position(out, id) == Some(q)
  {
    PositionIs(out, id, q);
  }

  /** A repeated identifier keeps the position of its first occurrence but the record of its
      last: it sits in the `Map` after exactly the identifiers first seen before it, holding
      the last drink that carries it. */
  lemma RepeatKeepsFirstPositionLastRecord(ds: seq<Drink>, id: string)
    requires Position(ds, id).Some?
    ensures Position(Dedup(ds), id) == Some(|FirstIds(ds[..Position(ds, id).value])|)
    ensures LastWith(ds, id) == Some(Dedup(ds)[|FirstIds(ds[..Position(ds, id).value])|])
  {
    var p := Position(ds, id).value;
    var q := |FirstIds(ds[..p])|;
    FirstIdsIndex(ds, p);
    DedupIds(ds);
    assert Ids(Dedup(ds))[q] == id;
    DedupDistinct(ds);
    DistinctPosition(Dedup(ds), q, id);
    DedupKeepsLast(ds);
  }

  /** The smallest case: a drink, another, then the first one's identifier again. */
  lemma {:induction false} RepeatExample()
    ensures Dedup([Named("1", "first"), Named("2", "other"), Named("1", "last")])
         == [Named("1", "last"), Named("2", "other")]
  {
    var a, b, c := Named("1", "first"), Named("2", "other"), Named("1", "last");
    var all := [a, b, c];
    DedupStep(all, 0, [], None);
    DedupStep(all, 1, [a], None);
    DedupStep(all, 2, [a, b], Some(0));
    assert all[..3] == all;
  }

  // ---------------------------------------------------------------------------
  // The recipe text of `getCocktailRecipe`.

  /** Number of ingredient/measure pairs the database defines per drink. */
  const IngredientSlots: nat := 15

  /** Pair number `i` (1-based); absent past the end of the drink's pairs. */
  function SlotAt(d: Drink, i: int): Slot {
    if 1 <= i <= |d.slots| then d.slots[i - 1] else Slot(None, None)
  }

  predicate HasIngredient(d: Drink, i: int) {
    Truthy(SlotAt(d, i).ingredient)
  }

  /** Pair numbers in `[lo, hi)` whose ingredient is present and non-empty, ascending. */
  function IndicesBetween(d: Drink, lo: int, hi: int): (r: seq<int>)
    ensures forall k :: 0 <= k < |r| ==> lo <= r[k] < hi && HasIngredient(d, r[k])
    ensures forall i :: lo <= i < hi && HasIngredient(d, i) ==> i in r
    ensures forall a, b :: 0 <= a < b < |r| ==> r[a] < r[b]
    decreases hi - lo
  {
    if hi <= lo then []
    else IndicesBetween(d, lo, hi - 1) + (if HasIngredient(d, hi - 1) then [hi - 1] else [])
  }

  /** The pairs the recipe lists: 1 to 15, in order, those with an ingredient. */
  function IngredientIndices(d: Drink): seq<int> {
    IndicesBetween(d, 1, IngredientSlots + 1)
  }

  /** One recipe item: `- <measure> <ingredient>`, both trimmed, or `- <ingredient>` when the
      trimmed measure is empty. */
  function ItemLine(s: Slot): string {
    var ingredient := Trim(if s.ingredient.Some? then s.ingredient.value else "");
    var measure := if Truthy(s.measure) then Trim(s.measure.value) else "";
    "- " + (if measure != "" then measure + " " + ingredient else ingredient)
  }

  function ItemsAt(d: Drink, idx: seq<int>): (r: seq<string>)
    ensures |r| == |idx|
  {
    seq(|idx|, k requires 0 <= k < |idx| => ItemLine(SlotAt(d, idx[k])))
  }

  /** Extending the pair list by one pair extends the item list by that pair's item. */
  lemma ItemsAtSnoc(d: Drink, idx: seq<int>, i: int)
    ensures ItemsAt(d, idx + [i]) == ItemsAt(d, idx) + [ItemLine(SlotAt(d, i))]
  {
  }

  /** One more pair considered by the loop: its item is appended exactly when it has an
      ingredient. */
  lemma ItemsStep(d: Drink, i: int)
    requires 1 <= i
    ensures ItemsAt(d, IndicesBetween(d, 1, i + 1))
         == ItemsAt(d, IndicesBetween(d, 1, i)) + (if HasIngredient(d, i) then [ItemLine(SlotAt(d, i))] else [])
  {
    var before := IndicesBetween(d, 1, i);
    var after := IndicesBetween(d, 1, i + 1);
    assert after == before + (if HasIngredient(d, i) then [i] else []);
    if HasIngredient(d, i) {
      ItemsAtSnoc(d, before, i);
    } else {
      assert after == before;
    }
  }

  function Items(d: Drink): seq<string> {
    ItemsAt(d, IngredientIndices(d))
  }

  /** The recipe's lines before they are joined with newlines. */
  function RecipeLines(d: Drink): seq<string> {
    ["Ingredients:"] + Items(d) + ["", "Instructions:", d.strInstructions]
  }

  /** The loop of `getCocktailRecipe` over pairs 1 to 15, building the item lines. */
  method FormatIngredients(d: Drink) returns (items: seq<string>)
    ensures |items| == |IngredientIndices(d)|
    ensures forall k :: 0 <= k < |items| ==> items[k] == ItemLine(SlotAt(d, IngredientIndices(d)[k]))
  {
    items := [];
    var i := 1;
    while i <= IngredientSlots
      invariant 1 <= i <= IngredientSlots + 1
      invariant items == ItemsAt(d, IndicesBetween(d, 1, i))
    {
      var slot := SlotAt(d, i);
      ItemsStep(d, i);
      if Truthy(slot.ingredient) {
        items := items + [ItemLine(slot)];
      } else {
        assert items + [] == items;
      }
      i := i + 1;
    }
  }

  /** `getCocktailRecipe` given the lookup reply for the drink: empty when the lookup failed
      or returned no drink, otherwise the first drink's lines joined with `"\n"`. */
  function GetCocktailRecipe(reply: LookupReply): (r: string)
    ensures r == "" <==> (reply.LookupFailed? || reply.drinks.None? || reply.drinks == Some([]))
    ensures r != "" ==> |r| >= 13 && r[..13] == "Ingredients:\n"
  {
    match reply
    case LookupFailed => ""
    case LookupOk(drinks) =>
      if drinks.None? || |drinks.value| == 0 then ""
      else
        var lines := RecipeLines(drinks.value[0]);
        assert Join(lines, "\n") == "Ingredients:" + "\n" + Join(lines[1..], "\n");
        Join(lines, "\n")
  }

  predicate NoNewline(s: string) { '\n' !in s }

  /** Neither half of the pair contains a line break. */
  predicate SlotNoNewline(s: Slot) {
    && (s.ingredient.Some? ==> NoNewline(s.ingredient.value))
    && (s.measure.Some? ==> NoNewline(s.measure.value))
  }

  /** Reading the recipe back line by line gives back its lines: the header, one item per
      pair with an ingredient, a blank line, the instructions header and the instructions. */
  lemma RecipeReadBack(drinks: seq<Drink>)
    requires |drinks| > 0
    requires forall k :: 0 <= k < |drinks[0].slots| ==> SlotNoNewline(drinks[0].slots[k])
    requires NoNewline(drinks[0].strInstructions)
    ensures Split(GetCocktailRecipe(LookupOk(Some(drinks))), '\n') == RecipeLines(drinks[0])
    ensures |RecipeLines(drinks[0])| == |IngredientIndices(drinks[0])| + 4
  {
    var d := drinks[0];
    RecipeLinesNoNewline(d);
    SplitJoin(RecipeLines(d), '\n');
  }

  /** No recipe line breaks when the drink's texts have no line breaks. */
  lemma RecipeLinesNoNewline(d: Drink)
    requires forall k :: 0 <= k < |d.slots| ==> SlotNoNewline(d.slots[k])
    requires NoNewline(d.strInstructions)
    ensures forall k :: 0 <= k < |RecipeLines(d)| ==> '\n' !in RecipeLines(d)[k]
  {
    ItemsNoNewline(d);
    LayoutNoNewline(Items(d), d.strInstructions);
  }

  /** The fixed recipe lines around the items carry no line break. */
  lemma LayoutNoNewline(items: seq<string>, instructions: string)
    requires forall k :: 0 <= k < |items| ==> NoNewline(items[k])
    requires NoNewline(instructions)
    ensures var lines := ["Ingredients:"] + items + ["", "Instructions:", instructions];
            forall k :: 0 <= k < |lines| ==> '\n' !in lines[k]
  {
    var lines := ["Ingredients:"] + items + ["", "Instructions:", instructions];
    forall k | 0 <= k < |lines| ensures '\n' !in lines[k] {
      if k == 0 {
        assert lines[k] == "Ingredients:";
      } else if k <= |items| {
        assert lines[k] == items[k - 1];
      } else if k == |items| + 1 {
        assert lines[k] == "";
      } else if k == |items| + 2 {
        assert lines[k] == "Instructions:";
      } else {
        assert lines[k] == instructions;
      }
    }
  }

  lemma ItemsNoNewline(d: Drink)
    requires forall k :: 0 <= k < |d.slots| ==> SlotNoNewline(d.slots[k])
    ensures forall k :: 0 <= k < |Items(d)| ==> NoNewline(Items(d)[k])
  {
    var idx := IngredientIndices(d);
    forall k | 0 <= k < |Items(d)| ensures NoNewline(Items(d)[k]) {
      var s := SlotAt(d, idx[k]);
      assert SlotNoNewline(s);
      ItemLineNoNewline(s);
    }
  }

  lemma ItemLineNoNewline(s: Slot)
    requires SlotNoNewline(s)
    ensures NoNewline(ItemLine(s))
  {
    var rawIngredient := if s.ingredient.Some? then s.ingredient.value else "";
    TrimNoNewline(rawIngredient);
    if Truthy(s.measure) {
      TrimNoNewline(s.measure.value);
    }
  }

  lemma TrimNoNewline(s: string)
    requires NoNewline(s)
    ensures NoNewline(Trim(s))
  {
  }

  /** A lookup that fails or finds nothing yields the empty recipe. */
  lemma RecipeMissingDrink(reply: LookupReply)
    requires reply.LookupFailed? || reply.drinks.None? || reply.drinks == Some([])
    ensures GetCocktailRecipe(reply) == ""
  {
  }
}

=== FILE: openai.dfy ===
/** The language-model client (src/api/openai.ts): prompt construction and the shape of
    the recommendation built from the model's answer. The chat-completion endpoint is a
    parameter `chat` from the request sent to the reply received; the recipe lookup for
    the recommended drink is a parameter `lookup`. */
module OpenAi {
  import opened Types
  import opened Strings
  import opened CocktailDb

  const SystemPrompt: string :=
    "You are a expert bartender creating a cocktail recipe for a customer based on how they feel."
    + "your main goal is to recommend a cocktail based on a list of cocktails the user gives you. "
    + "The customer is only interested in the cocktails provided in the list."
    + "You must return a valid json with the following structure: "
    + "{\"idDrink\": \"idDrink\", \"reason\": \"reason\"}"

  datatype Role = System | Assistant | User

  datatype Message = Message(role: Role, content: string)

  /** What a request carries besides its fixed URL and response format. */
  datatype ChatRequest = ChatRequest(
    authorization: string,
    model: string,
    temperature: real,
    maxTokens: int,
    messages: seq<Message>)

  /** What the endpoint answered. `ChatMalformed` is a body without
      `choices[0].message.content`, or whose content fails to parse as JSON; `ChatAnswer`
      carries the parsed `idDrink` and `reason` (content that parses but lacks those fields
      is outside this model). */
  datatype ChatReply =
    | ChatNetworkError
    | ChatHttpError(status: int)
    | ChatMalformed
    | ChatAnswer(idDrink: string, reason: string)

  datatype Recommendation = Recommendation(idDrink: string, reason: string, recipe: string)

  const EmptyRecommendation := Recommendation("", "", "")

  /** The result of a call that does not catch its own errors. */
  datatype Outcome = Returned(recommendation: Recommendation) | Threw

  function DrinkEntry(d: Drink): string {
    "idDrink: " + d.idDrink + " - nameDrink: " + d.strDrink
  }

  function Entries(ds: seq<Drink>): (r: seq<string>)
    ensures |r| == |ds| && forall k :: 0 <= k < |ds| ==> r[k] == DrinkEntry(ds[k])
  {
    seq(|ds|, k requires 0 <= k < |ds| => DrinkEntry(ds[k]))
  }

  /** `createCocktailListWithIdAndName`: one entry per drink, in order, separated by `", "`. */
  function CocktailListText(ds: seq<Drink>): (r: string)
    ensures r == "" <==> ds == []
    ensures forall k :: 0 <= k < |ds| ==> Contains(r, DrinkEntry(ds[k]))
  {
    JoinEmptyIff(Entries(ds), ", ");
    assert |ds| == 1 ==> |DrinkEntry(ds[0])| > 0;
    assert forall k :: 0 <= k < |ds| ==> Contains(Join(Entries(ds), ", "), DrinkEntry(ds[k])) by {
      forall k | 0 <= k < |ds| ensures Contains(Join(Entries(ds), ", "), DrinkEntry(ds[k])) {
        JoinContainsElement(Entries(ds), ", ", k);
      }
    }
    Join(Entries(ds), ", ")
  }

  /** The rendering is empty exactly for the empty list. */
  lemma CocktailListEmptyIff(ds: seq<Drink>)
    ensures CocktailListText(ds) == "" <==> ds == []
  {
    JoinEmptyIff(Entries(ds), ", ");
    if |ds| == 1 {
      assert |DrinkEntry(ds[0])| > 0;
    }
  }

  /** A single drink renders as its entry alone, with no separator. */
  lemma CocktailListSingle(d: Drink)
    ensures CocktailListText([d]) == "idDrink: " + d.idDrink + " - nameDrink: " + d.strDrink
  {
    assert Entries([d]) == [DrinkEntry(d)];
  }

  /** Rendering splits along any split of the list into two non-empty parts, with exactly one
      separator between them: no trailing or doubled separator. */
  lemma CocktailListAppend(ds: seq<Drink>, es: seq<Drink>)
    requires |ds| > 0 && |es| > 0
    ensures CocktailListText(ds + es) == CocktailListText(ds) + ", " + CocktailListText(es)
  {
    assert Entries(ds + es) == Entries(ds) + Entries(es);
    JoinAppend(Entries(ds), Entries(es), ", ");
  }

  /** Every drink's entry appears in the rendering. */
  lemma CocktailListMentions(ds: seq<Drink>, k: int)
    requires 0 <= k < |ds|
    ensures Contains(CocktailListText(ds), "idDrink: " + ds[k].idDrink + " - nameDrink: " + ds[k].strDrink)
  {
    JoinContainsElement(Entries(ds), ", ", k);
  }

  /** The text after the mood in both user prompts. */
  function MoodRequest(mood: string, ds: seq<Drink>): string {
    "From the following list\n  recommend a cocktail for someone who is feeling " + mood + ": " + CocktailListText(ds)
  }

  lemma MoodRequestMentions(mood: string, ds: seq<Drink>)
    ensures Contains(MoodRequest(mood, ds), mood)
    ensures Contains(MoodRequest(mood, ds), CocktailListText(ds))
  {
    var head := "From the following list\n  recommend a cocktail for someone who is feeling ";
    ContainsMiddle(head, mood, ": " + CocktailListText(ds));
    assert head + mood + (": " + CocktailListText(ds)) == MoodRequest(mood, ds);
    ContainsMiddle(head + mood + ": ", CocktailListText(ds), "");
    assert head + mood + ": " + CocktailListText(ds) + "" == MoodRequest(mood, ds);
  }

  /** `getPrompts`: the fixed system prompt, then a user message naming the mood and listing
      the drinks. */
  function GetPrompts(mood: string, ds: seq<Drink>): (r: seq<Message>)
    ensures |r| == 2
    ensures r[0] == Message(System, SystemPrompt)
    ensures r[1].role == User
    ensures Contains(r[1].content, mood) && Contains(r[1].content, CocktailListText(ds))
  {
    MoodRequestMentions(mood, ds);
    [Message(System, SystemPrompt), Message(User, MoodRequest(mood, ds))]
  }

  /** The user message of `getPromptsConsideringUserFeedback`. */
  function FeedbackContent(feedback: string, mood: string, ds: seq<Drink>): string {
    "Considering the feedback " + ("\"" + feedback + "\"")
    + ("\n    from the user, recommend a different cocktail." + MoodRequest(mood, ds))
  }

  lemma FeedbackContentMentions(feedback: string, mood: string, ds: seq<Drink>)
    ensures Contains(FeedbackContent(feedback, mood, ds), "\"" + feedback + "\"")
    ensures Contains(FeedbackContent(feedback, mood, ds), mood)
    ensures Contains(FeedbackContent(feedback, mood, ds), CocktailListText(ds))
  {
    var head := "Considering the feedback ";
    var quoted := "\"" + feedback + "\"";
    var tail := "\n    from the user, recommend a different cocktail." + MoodRequest(mood, ds);
    ContainsSelf(quoted);
    ContainsBefore(quoted, tail, quoted);
    ContainsAfter(head, quoted + tail, quoted);
    assert head + (quoted + tail) == FeedbackContent(feedback, mood, ds);
    MoodRequestMentions(mood, ds);
    var lead := "\n    from the user, recommend a different cocktail.";
    ContainsAfter(lead, MoodRequest(mood, ds), mood);
    ContainsAfter(lead, MoodRequest(mood, ds), CocktailListText(ds));
    ContainsAfter(head + quoted, tail, mood);
    ContainsAfter(head + quoted, tail, CocktailListText(ds));
    assert head + quoted + tail == FeedbackContent(feedback, mood, ds);
  }

  /** `getPromptsConsideringUserFeedback`: the system prompt, the previous recommendation
      verbatim as the assistant's turn, then a user message quoting the feedback. */
  function GetPromptsConsideringUserFeedback(feedback: string, previous: string, mood: string, ds: seq<Drink>): (r: seq<Message>)
    ensures |r| == 3
    ensures r[0] == Message(System, SystemPrompt)
    ensures r[1] == Message(Assistant, previous)
    ensures r[2].role == User
    ensures Contains(r[2].content, "\"" + feedback + "\"")
    ensures Contains(r[2].content, mood) && Contains(r[2].content, CocktailListText(ds))
  {
    FeedbackContentMentions(feedback, mood, ds);
    [Message(System, SystemPrompt), Message(Assistant, previous), Message(User, FeedbackContent(feedback, mood, ds))]
  }

  /** The request of `getRecommendedCocktailV0`. */
  function V0Request(mood: string, ds: seq<Drink>, config: Configuration): ChatRequest {
    ChatRequest("Bearer " + config.apiKey, config.model, config.temperature, config.maxTokens, GetPrompts(mood, ds))
  }

  /** The request of `getRecommendedCocktailV1`; its authorization value ends in a space. */
  function V1Request(mood: string, ds: seq<Drink>, config: Configuration): ChatRequest {
    ChatRequest("Bearer " + config.apiKey + " ", config.model, config.temperature, config.maxTokens, GetPrompts(mood, ds))
  }

  /** The request of `getRecommendedCocktailV1WithUserFeedback`. */
  function FeedbackRequest(mood: string, ds: seq<Drink>, feedback: string, config: Configuration, previous: string): ChatRequest {
    ChatRequest("Bearer " + config.apiKey + " ", config.model, config.temperature, config.maxTokens,
                GetPromptsConsideringUserFeedback(feedback, previous, mood, ds))
  }

  /** The recommendation built from a reply: the model's `idDrink` and `reason` unchanged and
      the recipe looked up for that `idDrink`. */
  function FromAnswer(reply: ChatReply, lookup: string -> LookupReply): Recommendation
    requires reply.ChatAnswer?
  {
    Recommendation(reply.idDrink, reply.reason, GetCocktailRecipe(lookup(reply.idDrink)))
  }

  /** `getRecommendedCocktailV0`: no error handling, so any failure reaches the caller. A
      non-OK reply has no `choices` and fails the same way. */
  function GetRecommendedCocktailV0(mood: string, ds: seq<Drink>, config: Configuration,
                                    chat: ChatRequest -> ChatReply, lookup: string -> LookupReply): (r: Outcome)
    ensures r.Threw? <==> !chat(V0Request(mood, ds, config)).ChatAnswer?
    ensures r.Returned? ==> var a := chat(V0Request(mood, ds, config));
              r.recommendation.idDrink == a.idDrink && r.recommendation.reason == a.reason
              && r.recommendation.recipe == GetCocktailRecipe(lookup(a.idDrink))
  {
    var reply := chat(V0Request(mood, ds, config));
    if reply.ChatAnswer? then Returned(FromAnswer(reply, lookup)) else Threw
  }

  /** `getRecommendedCocktailV1`: every failure, a non-OK status included, yields the empty
      recommendation. */
  function GetRecommendedCocktailV1(mood: string, ds: seq<Drink>, config: Configuration,
                                    chat: ChatRequest -> ChatReply, lookup: string -> LookupReply): (r: Recommendation)
    ensures !chat(V1Request(mood, ds, config)).ChatAnswer? ==> r == Recommendation("", "", "")
    ensures chat(V1Request(mood, ds, config)).ChatAnswer? ==> var a := chat(V1Request(mood, ds, config));
              r.idDrink == a.idDrink && r.reason == a.reason && r.recipe == GetCocktailRecipe(lookup(a.idDrink))
  {
    var reply := chat(V1Request(mood, ds, config));
    if reply.ChatAnswer? then FromAnswer(reply, lookup) else EmptyRecommendation
  }

  /** `getRecommendedCocktailV1WithUserFeedback`, with the same failure handling as V1. */
  function GetRecommendedCocktailV1WithUserFeedback(mood: string, ds: seq<Drink>, feedback: string, config: Configuration,
                                                    previous: string, chat: ChatRequest -> ChatReply,
                                                    lookup: string -> LookupReply): (r: Recommendation)
    ensures !chat(FeedbackRequest(mood, ds, feedback, config, previous)).ChatAnswer? ==> r == Recommendation("", "", "")
    ensures chat(FeedbackRequest(mood, ds, feedback, config, previous)).ChatAnswer? ==>
              var a := chat(FeedbackRequest(mood, ds, feedback, config, previous));
              r.idDrink == a.idDrink && r.reason == a.reason && r.recipe == GetCocktailRecipe(lookup(a.idDrink))
  {
    var reply := chat(FeedbackRequest(mood, ds, feedback, config, previous));
    if reply.ChatAnswer? then FromAnswer(reply, lookup) else EmptyRecommendation
  }

  /** V0 and V1 send the same messages with the same settings; given the same reply, V1
      returns what V0 returns and replaces V0's failure with the empty recommendation. */
  lemma V0AndV1Agree(mood: string, ds: seq<Drink>, config: Configuration,
                     chat: ChatRequest -> ChatReply, lookup: string -> LookupReply)
    requires chat(V0Request(mood, ds, config)) == chat(V1Request(mood, ds, config))
    ensures V0Request(mood, ds, config).messages == V1Request(mood, ds, config).messages
    ensures GetRecommendedCocktailV0(mood, ds, config, chat, lookup)
         == if chat(V1Request(mood, ds, config)).ChatAnswer?
            then Returned(GetRecommendedCocktailV1(mood, ds, config, chat, lookup)) else Threw
  {
  }
}

=== FILE: picker.dfy ===
/** The ingredient picker (src/components/UserInput.tsx): a search box over the known
    ingredients, a filtered suggestion list with a highlighted entry, and the selection.
    The selection belongs to the application state; it is held here with the picker's own
    state so that each event is one function from state to state. */
module Picker {
  import opened Types
  import opened Strings

  const DefaultIngredients: seq<string> := [
    "Vodka", "Gin", "Rum", "Tequila", "Whiskey", "Brandy", "Vermouth",
    "Cointreau", "Kahlua", "Baileys", "Amaretto", "Champagne", "Wine",
    "Beer", "Soda", "Juice", "Milk", "Cream", "Sugar", "Salt", "Pepper",
    "Tabasco", "Worcestershire", "Bitters", "Egg", "Honey", "Syrup",
    "Grenadine", "Mint", "Cinnamon", "Nutmeg", "Vanilla", "Coffee",
    "Tea", "Ice", "Water"]

  /** `highlightedIndex` is -1 when nothing is highlighted. */
  datatype PickerState = PickerState(
    searchTerm: string,
    allIngredients: seq<string>,
    highlightedIndex: int,
    selected: seq<string>)

  datatype Key = ArrowDown | ArrowUp | Enter | Tab | Escape | OtherKey

  predicate NoDuplicates(xs: seq<string>) {
    forall i, j :: 0 <= i < j < |xs| ==> xs[i] != xs[j]
  }

  /** Non-empty and without white space at either end, so trimming leaves it as it is. */
  predicate Trimmed(x: string) {
    x != "" && !IsJsWhitespace(x[0]) && !IsJsWhitespace(x[|x| - 1])
  }

  lemma TrimOfTrimmed(x: string)
    requires Trimmed(x)
    ensures Trim(x) == x
  {
    assert TrimStart(x) == x;
    assert TrimEnd(x) == x;
  }

  /** What every reachable picker state satisfies: no ingredient known or selected twice,
      every selected ingredient known, every known ingredient trimmed. */
  predicate Valid(s: PickerState) {
    && NoDuplicates(s.allIngredients)
    && NoDuplicates(s.selected)
    && (forall x :: x in s.selected ==> x in s.allIngredients)
    && (forall k :: 0 <= k < |s.allIngredients| ==> Trimmed(s.allIngredients[k]))
  }

  // ---------------------------------------------------------------------------
  // Adding and removing

  /** `ys` is `xs` with possibly more entries after it. */
  predicate Grows(xs: seq<string>, ys: seq<string>) {
    |xs| <= |ys| && ys[..|xs|] == xs
  }

  lemma GrowsTrans(xs: seq<string>, ys: seq<string>, zs: seq<string>)
    requires Grows(xs, ys) && Grows(ys, zs)
    ensures Grows(xs, zs)
  {
    assert zs[..|xs|] == zs[..|ys|][..|xs|];
  }

  /** `xs` with `t` appended unless already present. */
  function AddNew(xs: seq<string>, t: string): (r: seq<string>)
    ensures forall x :: x in r <==> x in xs || x == t
    ensures |xs| <= |r| <= |xs| + 1 && r[..|xs|] == xs
    ensures t in xs <==> r == xs
  {
    if t in xs then xs
    else
      assert (xs + [t])[..|xs|] == xs;
      assert (xs + [t])[|xs|] == t;
      xs + [t]
  }

  /** `addIngredient`. A blank name changes nothing. Otherwise the trimmed name becomes known
      and selected (each at most once, appended at the end), and the search is cleared with
      nothing highlighted. */
  function AddIngredient(s: PickerState, ingredient: string): (r: PickerState)
    ensures Trim(ingredient) == "" ==> r == s
    ensures Trim(ingredient) != "" ==>
              && r.searchTerm == "" && r.highlightedIndex == -1
              && Trim(ingredient) in r.selected && Trim(ingredient) in r.allIngredients
              && |s.selected| <= |r.selected| <= |s.selected| + 1 && r.selected[..|s.selected|] == s.selected
              && (Trim(ingredient) in s.selected <==> r.selected == s.selected)
              && |s.allIngredients| <= |r.allIngredients| <= |s.allIngredients| + 1
              && r.allIngredients[..|s.allIngredients|] == s.allIngredients
              && (Trim(ingredient) in s.allIngredients <==> r.allIngredients == s.allIngredients)
  {
    var t := Trim(ingredient);
    if t == "" then s
    else PickerState("", AddNew(s.allIngredients, t), -1, AddNew(s.selected, t))
  }

  /** Appending a name not yet present keeps a list duplicate-free. */
  lemma AppendNew(xs: seq<string>, t: string)
    requires NoDuplicates(xs) && t !in xs
    ensures NoDuplicates(xs + [t])
  {
    var ys := xs + [t];
    forall i, j | 0 <= i < j < |ys| ensures ys[i] != ys[j] {
      assert ys[i] == xs[i];
      if j == |xs| { assert ys[i] in xs; } else { assert ys[j] == xs[j]; }
    }
  }

  /** The state `addIngredient` leaves for a trimmed name is valid. */
  lemma AddedValid(s: PickerState, t: string)
    requires Valid(s) && Trimmed(t)
    ensures Valid(PickerState("", AddNew(s.allIngredients, t), -1, AddNew(s.selected, t)))
  {
    var all := AddNew(s.allIngredients, t);
    if t !in s.selected { AppendNew(s.selected, t); }
    if t !in s.allIngredients { AppendNew(s.allIngredients, t); }
    forall k | 0 <= k < |all| ensures Trimmed(all[k]) {
      if k < |s.allIngredients| { assert all[k] == s.allIngredients[k]; }
    }
  }

  /** Adding keeps the picker valid; in particular the selection stays duplicate-free. */
  lemma AddKeepsValid(s: PickerState, ingredient: string)
    requires Valid(s)
    ensures Valid(AddIngredient(s, ingredient))
  {
    var t := Trim(ingredient);
    if t != "" {
      TrimIdempotent(ingredient);
      assert Trimmed(t);
      AddedValid(s, t);
      assert AddIngredient(s, ingredient) == PickerState("", AddNew(s.allIngredients, t), -1, AddNew(s.selected, t));
    }
  }

  /** The selection without `name`. */
  function Without(xs: seq<string>, name: string): seq<string> {
    if |xs| == 0 then []
    else if xs[0] == name then Without(xs[1..], name)
    else [xs[0]] + Without(xs[1..], name)
  }

  /** Filtering out `name` drops all its copies and keeps every other element as often
      as it occurs. */
  lemma {:induction false} WithoutCounts(xs: seq<string>, name: string)
    ensures multiset(Without(xs, name)) == multiset(xs)[name := 0]
  {
    if |xs| > 0 {
      var rest := xs[1..];
      WithoutCounts(rest, name);
      assert xs == [xs[0]] + rest;
      assert multiset(xs) == multiset{xs[0]} + multiset(rest);
      DropAllAfterAdd(xs[0], multiset(rest), name);
      if xs[0] != name {
        assert multiset([xs[0]] + Without(rest, name)) == multiset{xs[0]} + multiset(Without(rest, name));
      }
    }
  }

  /** Dropping every copy of `name` commutes with adding one element. */
  lemma DropAllAfterAdd(a: string, m: multiset<string>, name: string)
    ensures (multiset{a} + m)[name := 0] == if a == name then m[name := 0] else multiset{a} + m[name := 0]
  {
    if a == name {
      assert (multiset{a} + m)[name := 0] == m[name := 0];
    } else {
      assert (multiset{a} + m)[name := 0] == multiset{a} + m[name := 0];
    }
  }

  /** `a` is `b` with some elements left out and the rest in their order. */
  predicate Subsequence(a: seq<string>, b: seq<string>)
    decreases |b|
  {
    |a| == 0 || (|b| > 0 && if a[0] == b[0] then Subsequence(a[1..], b[1..]) else Subsequence(a, b[1..]))
  }

  /** Removing deletes every occurrence of the name, keeps every other element, and keeps
      the order of what remains. */
  lemma {:induction false} WithoutSpec(xs: seq<string>, name: string)
    ensures forall x :: x in Without(xs, name) <==> x in xs && x != name
    ensures Subsequence(Without(xs, name), xs)
    ensures multiset(Without(xs, name)) == multiset(xs)[name := 0]
    ensures |Without(xs, name)| <= |xs|
  {
    WithoutCounts(xs, name);
    if |xs| > 0 {
      WithoutSpec(xs[1..], name);
      var w := Without(xs[1..], name);
      if xs[0] != name {
        assert ([xs[0]] + w)[1..] == w;
      } else if |w| > 0 {
        assert w[0] in w;
      }
    }
  }

  lemma {:induction false} SubsequenceKeepsDistinct(a: seq<string>, b: seq<string>)
    requires Subsequence(a, b) && NoDuplicates(b)
    ensures NoDuplicates(a)
    decreases |b|
  {
    if |a| > 0 {
      if a[0] == b[0] {
        SubsequenceKeepsDistinct(a[1..], b[1..]);
        SubsequenceMembers(a[1..], b[1..]);
        forall j | 0 < j < |a| ensures a[0] != a[j] {
          assert a[j] == a[1..][j - 1];
          assert a[j] in b[1..];
        }
      } else {
        SubsequenceKeepsDistinct(a, b[1..]);
      }
    }
  }

  lemma {:induction false} SubsequenceMembers(a: seq<string>, b: seq<string>)
    requires Subsequence(a, b)
    ensures forall x :: x in a ==> x in b
    decreases |b|
  {
    if |a| > 0 {
      if a[0] == b[0] {
        SubsequenceMembers(a[1..], b[1..]);
        assert forall x :: x in a ==> x == a[0] || x in a[1..];
      } else {
        SubsequenceMembers(a, b[1..]);
      }
    }
  }

  /** `removeIngredient`: the selection loses every occurrence of the name and keeps the
      order of the rest; nothing else changes. */
  function RemoveIngredient(s: PickerState, name: string): (r: PickerState)
    ensures name !in r.selected
    ensures forall x :: x != name ==> (x in r.selected <==> x in s.selected)
    ensures Subsequence(r.selected, s.selected)
    ensures multiset(r.selected) == multiset(s.selected)[name := 0]
    ensures r.searchTerm == s.searchTerm && r.allIngredients == s.allIngredients
            && r.highlightedIndex == s.highlightedIndex
  {
    WithoutSpec(s.selected, name);
    s.(selected := Without(s.selected, name))
  }

  lemma RemoveKeepsValid(s: PickerState, name: string)
    requires Valid(s)
    ensures Valid(RemoveIngredient(s, name))
  {
    WithoutSpec(s.selected, name);
    SubsequenceKeepsDistinct(Without(s.selected, name), s.selected);
  }

  // ---------------------------------------------------------------------------
  // The suggestion list

  /** An ingredient is suggested when its lower-case form contains the lower-case search
      and it is not selected. */
  predicate Suggested(x: string, term: string, selected: seq<string>) {
    Contains(Lower(x), Lower(term)) && x !in selected
  }

  function FilterIngredients(all: seq<string>, term: string, selected: seq<string>): (r: seq<string>)
    ensures |r| <= |all|
    ensures forall x :: x in r ==> x in all && Suggested(x, term, selected)
  {
    if |all| == 0 then []
    else
      var rest := FilterIngredients(all[1..], term, selected);
      assert forall x :: x in all[1..] ==> x in all;
      if Suggested(all[0], term, selected) then [all[0]] + rest else rest
  }

  /** `filteredIngredients`: known, unselected ingredients whose lower-case form contains
      the lower-case search. */
  function Filtered(s: PickerState): (r: seq<string>)
    ensures forall x :: x in r ==> x in s.allIngredients && x !in s.selected
                                   && Contains(Lower(x), Lower(s.searchTerm))
  {
    FilterIngredients(s.allIngredients, s.searchTerm, s.selected)
  }

  /** The suggestions are exactly the known, unselected ingredients matching the search,
      in the order they are known. */
  lemma {:induction false} FilterSpec(all: seq<string>, term: string, selected: seq<string>)
    ensures forall x :: x in FilterIngredients(all, term, selected) <==> x in all && Suggested(x, term, selected)
    ensures Subsequence(FilterIngredients(all, term, selected), all)
  {
    if |all| > 0 {
      FilterSpec(all[1..], term, selected);
      var f := FilterIngredients(all[1..], term, selected);
      if Suggested(all[0], term, selected) {
        assert ([all[0]] + f)[1..] == f;
      } else if |f| > 0 {
        assert f[0] in f;
      }
    }
  }

  /** Every suggestion is a known ingredient and is trimmed, when the picker is valid. */
  lemma FilteredTrimmed(s: PickerState)
    requires Valid(s)
    ensures forall k :: 0 <= k < |Filtered(s)| ==> Trimmed(Filtered(s)[k]) && Trim(Filtered(s)[k]) == Filtered(s)[k]
  {
    FilterSpec(s.allIngredients, s.searchTerm, s.selected);
    forall k | 0 <= k < |Filtered(s)| ensures Trimmed(Filtered(s)[k]) && Trim(Filtered(s)[k]) == Filtered(s)[k] {
      var x := Filtered(s)[k];
      assert x in s.allIngredients;
      var i :| 0 <= i < |s.allIngredients| && s.allIngredients[i] == x;
      TrimOfTrimmed(x);
    }
  }

  // ---------------------------------------------------------------------------
  // Highlight movement

  /** ArrowDown: one step forward, wrapping from the last entry to the first. */
  function NextHighlight(h: int, n: int): (r: int)
    ensures n >= 1 && -1 <= h < n ==> 0 <= r < n
    ensures n >= 1 && h == -1 ==> r == 0
  {
    if h < n - 1 then h + 1 else 0
  }

  /** ArrowUp: one step back, wrapping from the first entry (or from none) to the last. */
  function PrevHighlight(h: int, n: int): (r: int)
    ensures n >= 1 && -1 <= h < n ==> 0 <= r < n
    ensures n >= 1 && h <= 0 ==> r == n - 1
  {
    if h > 0 then h - 1 else n - 1
  }

  /** The two arrows undo each other on a highlighted entry. */
  lemma ArrowsInverse(h: int, n: int)
    requires 0 <= h < n
    ensures PrevHighlight(NextHighlight(h, n), n) == h
    ensures NextHighlight(PrevHighlight(h, n), n) == h
  {
  }

  /** `k` presses of ArrowDown. */
  function StepsDown(h: int, n: int, k: nat): int {
    if k == 0 then h else NextHighlight(StepsDown(h, n, k - 1), n)
  }

  /** ArrowDown walks the entries cyclically: `k` presses from entry `h` land on entry
      `(h + k) mod n`, so `n` presses come back to `h`. */
  lemma {:induction false} StepsDownCycle(h: int, n: int, k: nat)
    requires 0 <= h < n && k <= n
    ensures StepsDown(h, n, k) == if h + k < n then h + k else h + k - n
  {
    if k > 0 {
      StepsDownCycle(h, n, k - 1);
    }
  }

  // ---------------------------------------------------------------------------
  // Key handling

  /** The first suggestion equal to the search up to case, as `Array.prototype.find`. */
  function FindExact(f: seq<string>, term: string): (r: Option<string>)
    ensures r.Some? ==> r.value in f && Lower(r.value) == Lower(term)
    ensures r.Some? ==> exists k :: 0 <= k < |f| && f[k] == r.value
                                    && forall j :: 0 <= j < k ==> Lower(f[j]) != Lower(term)
    ensures r.None? <==> forall k :: 0 <= k < |f| ==> Lower(f[k]) != Lower(term)
  {
    if |f| == 0 then None
    else if Lower(f[0]) == Lower(term) then Some(f[0])
    else
      var r := FindExact(f[1..], term);
      assert r.Some? ==> exists k :: 0 <= k < |f| && f[k] == r.value
                                     && forall j :: 0 <= j < k ==> Lower(f[j]) != Lower(term) by {
        if r.Some? {
          var k :| 0 <= k < |f[1..]| && f[1..][k] == r.value
                   && forall j :: 0 <= j < k ==> Lower(f[1..][j]) != Lower(term);
          assert f[k + 1] == r.value;
          forall j | 0 < j < k + 1 ensures Lower(f[j]) != Lower(term) {
            assert f[j] == f[1..][j - 1];
          }
        }
      }
      r
  }

  /** The name Enter passes to `addIngredient`: the highlighted suggestion if there is one,
      else a suggestion equal to the search up to case, else the search as typed. */
  function EnterChoice(s: PickerState): string {
    var f := Filtered(s);
    if s.highlightedIndex >= 0 && s.highlightedIndex < |f| && f[s.highlightedIndex] != "" then f[s.highlightedIndex]
    else
      var exact := FindExact(f, s.searchTerm);
      if exact.Some? && exact.value != "" then exact.value else s.searchTerm
  }

  /** `handleKeyDown`. No key removes a selected or known ingredient; only Enter and Tab
      add one, and then the search is cleared; an unhandled key changes nothing. */
  function KeyDown(s: PickerState, key: Key): (r: PickerState)
    ensures Grows(s.selected, r.selected) && Grows(s.allIngredients, r.allIngredients)
    ensures r.selected != s.selected ==> (key.Enter? || key.Tab?) && r.searchTerm == ""
    ensures key.OtherKey? ==> r == s
  {
    var f := Filtered(s);
    match key
    case ArrowDown => s.(highlightedIndex := NextHighlight(s.highlightedIndex, |f|))
    case ArrowUp => s.(highlightedIndex := PrevHighlight(s.highlightedIndex, |f|))
    case Enter => if Trim(s.searchTerm) != "" then AddIngredient(s, EnterChoice(s)) else s
    case Tab => if |f| == 1 then AddIngredient(s, f[0]) else s
    case Escape => s.(searchTerm := "", highlightedIndex := -1)
    case OtherKey => s
  }

  /** Enter with a blank search does nothing. Otherwise it selects, in order of preference,
      the highlighted suggestion, the first suggestion equal to the search up to case (in
      its stored casing), or the trimmed search; then the search is cleared. */
  lemma EnterResolves(s: PickerState)
    requires Valid(s)
    ensures Trim(s.searchTerm) == "" ==> KeyDown(s, Enter) == s
    ensures Trim(s.searchTerm) != "" ==>
              var r := KeyDown(s, Enter);
              var f := Filtered(s);
              var h := s.highlightedIndex;
              && r.searchTerm == "" && r.highlightedIndex == -1
              && (0 <= h < |f| ==> f[h] in r.selected)
              && (!(0 <= h < |f|) && FindExact(f, s.searchTerm).Some? ==>
                    FindExact(f, s.searchTerm).value in r.selected
                    && Lower(FindExact(f, s.searchTerm).value) == Lower(s.searchTerm))
              && (!(0 <= h < |f|) && FindExact(f, s.searchTerm).None? ==> Trim(s.searchTerm) in r.selected)
  {
    if Trim(s.searchTerm) != "" {
      EnterChoiceTrimmed(s);
      var c := EnterChoice(s);
      assert KeyDown(s, Enter) == AddIngredient(s, c);
    }
  }

  /** What Enter hands to `addIngredient`, once trimmed: the highlighted suggestion, else the
      exact match, else the trimmed search. */
  lemma EnterChoiceTrimmed(s: PickerState)
    requires Valid(s) && Trim(s.searchTerm) != ""
    ensures var f := Filtered(s);
            var h := s.highlightedIndex;
            var exact := FindExact(f, s.searchTerm);
            && Trim(EnterChoice(s)) != ""
            && (0 <= h < |f| ==> Trim(EnterChoice(s)) == f[h])
            && (!(0 <= h < |f|) && exact.Some? ==> Trim(EnterChoice(s)) == exact.value)
            && (!(0 <= h < |f|) && exact.None? ==> Trim(EnterChoice(s)) == Trim(s.searchTerm))
  {
    var f := Filtered(s);
    var h := s.highlightedIndex;
    var exact := FindExact(f, s.searchTerm);
    if 0 <= h < |f| {
      EnterHighlighted(s);
      TrimOfTrimmed(f[h]);
    } else if exact.Some? {
      EnterExact(s);
      TrimOfTrimmed(exact.value);
    } else {
      assert EnterChoice(s) == s.searchTerm;
    }
  }

  lemma EnterHighlighted(s: PickerState)
    requires Valid(s) && 0 <= s.highlightedIndex < |Filtered(s)|
    ensures Trimmed(Filtered(s)[s.highlightedIndex]) && EnterChoice(s) == Filtered(s)[s.highlightedIndex]
  {
    FilteredTrimmed(s);
  }

  lemma EnterExact(s: PickerState)
    requires Valid(s) && !(0 <= s.highlightedIndex < |Filtered(s)|)
    requires FindExact(Filtered(s), s.searchTerm).Some?
    ensures var v := FindExact(Filtered(s), s.searchTerm).value;
            Trimmed(v) && EnterChoice(s) == v
  {
    var f := Filtered(s);
    FilteredTrimmed(s);
    var v := FindExact(f, s.searchTerm).value;
    var k :| 0 <= k < |f| && f[k] == v;
    assert Trimmed(f[k]);
  }

  /** Tab selects the only suggestion when there is exactly one, and otherwise does nothing. */
  lemma TabResolves(s: PickerState)
    requires Valid(s)
    ensures |Filtered(s)| == 1 ==> Filtered(s)[0] in KeyDown(s, Tab).selected
                                   && KeyDown(s, Tab).searchTerm == ""
    ensures |Filtered(s)| != 1 ==> KeyDown(s, Tab) == s
  {
    FilteredTrimmed(s);
  }

  /** Escape clears the search and the highlight and nothing else. */
  lemma EscapeClears(s: PickerState)
    ensures KeyDown(s, Escape) == s.(searchTerm := "", highlightedIndex := -1)
  {
  }

  /** The arrows only move the highlight, and with at least one suggestion they land on one. */
  lemma ArrowsMoveOnlyHighlight(s: PickerState, key: Key)
    requires key == ArrowDown || key == ArrowUp
    requires |Filtered(s)| >= 1 && -1 <= s.highlightedIndex < |Filtered(s)|
    ensures KeyDown(s, key) == s.(highlightedIndex := KeyDown(s, key).highlightedIndex)
    ensures 0 <= KeyDown(s, key).highlightedIndex < |Filtered(s)|
  {
  }

  // ---------------------------------------------------------------------------
  // Events and the auto-select effect

  /** `handleSearchChange`: the new search with the first suggestion highlighted. */
  function SearchChanged(s: PickerState, value: string): (r: PickerState)
    ensures r.searchTerm == value && r.highlightedIndex == 0
    ensures r.selected == s.selected && r.allIngredients == s.allIngredients
  {
    s.(searchTerm := value, highlightedIndex := 0)
  }

  /** The auto-select effect: a lone suggestion equal to a non-empty search up to case is
      selected. `filteredIngredients` is a fresh array on every render and is among the
      effect's dependencies, so the effect runs after every render, whatever caused it. */
  function AutoSelect(s: PickerState): (r: PickerState)
    ensures Grows(s.selected, r.selected) && Grows(s.allIngredients, r.allIngredients)
    ensures |r.selected| <= |s.selected| + 1
    ensures !LoneExactMatch(s) ==> r == s
    ensures LoneExactMatch(s) && Trim(Filtered(s)[0]) != "" ==>
              Trim(Filtered(s)[0]) in r.selected && r.searchTerm == "" && r.highlightedIndex == -1
    ensures LoneExactMatch(s) && Trim(Filtered(s)[0]) == "" ==> r == s
    ensures r != s ==> LoneExactMatch(s) && r.searchTerm == "" && Trim(Filtered(s)[0]) in r.selected
  {
    if LoneExactMatch(s) then AddIngredient(s, Filtered(s)[0]) else s
  }

  /** The effect's condition: a non-empty search with exactly one suggestion, and that
      suggestion equal to the search up to case. */
  predicate LoneExactMatch(s: PickerState)
  {
    s.searchTerm != "" && |Filtered(s)| == 1 && Lower(Filtered(s)[0]) == Lower(s.searchTerm)
  }

  /** The effect settles after one run: once it fires the search is empty, so it does not
      fire again. */
  lemma AutoSelectSettles(s: PickerState)
    requires Valid(s)
    ensures AutoSelect(AutoSelect(s)) == AutoSelect(s)
    ensures AutoSelect(s) != s ==> AutoSelect(s).searchTerm == ""
                                   && Filtered(s)[0] in AutoSelect(s).selected
  {
    FilteredTrimmed(s);
  }

  /** On a valid picker the effect always fires on a lone exact match: known names are
      trimmed and not blank, and a suggestion is never already selected, so the match is
      appended to the selection, the search is cleared and nothing is highlighted. */
  lemma AutoSelectFires(s: PickerState)
    requires Valid(s) && LoneExactMatch(s)
    ensures AutoSelect(s).selected == s.selected + [Filtered(s)[0]]
    ensures AutoSelect(s).allIngredients == s.allIngredients
    ensures AutoSelect(s).searchTerm == "" && AutoSelect(s).highlightedIndex == -1
  {
    var x := Filtered(s)[0];
    FilterSpec(s.allIngredients, s.searchTerm, s.selected);
    assert x in Filtered(s);
    FilteredTrimmed(s);
    assert Trim(x) == x;
  }

  lemma AutoSelectKeepsValid(s: PickerState)
    requires Valid(s)
    ensures Valid(AutoSelect(s))
  {
    if |Filtered(s)| == 1 { AddKeepsValid(s, Filtered(s)[0]); }
  }

  /** One thing that re-renders the picker: typing, a key, a click on a suggestion, the
      remove button of a selected badge, or the application clearing the selection (its
      reset button). */
  datatype Event =
    | Typed(value: string)
    | Pressed(key: Key)
    | Clicked(ingredient: string)
    | Removed(name: string)
    | SelectionCleared

  /** The handler of an event, before the render it causes. No event forgets a known
      ingredient, and only removing and clearing shrink the selection. */
  function Handle(s: PickerState, e: Event): (r: PickerState)
    ensures Grows(s.allIngredients, r.allIngredients)
    ensures !(e.Removed? || e.SelectionCleared?) ==> Grows(s.selected, r.selected)
  {
    match e
    case Typed(v) => SearchChanged(s, v)
    case Pressed(k) => KeyDown(s, k)
    case Clicked(i) => AddIngredient(s, i)
    case Removed(n) => RemoveIngredient(s, n)
    case SelectionCleared => s.(selected := [])
  }

  /** An event handled and rendered: the handler, then the auto-select effect. */
  function Step(s: PickerState, e: Event): (r: PickerState)
    ensures Grows(s.allIngredients, r.allIngredients)
    ensures !(e.Removed? || e.SelectionCleared?) ==> Grows(s.selected, r.selected)
    ensures e.Removed? ==> e.name !in r.selected || r.searchTerm == ""
  {
    var t := Handle(s, e);
    assert Grows(s.allIngredients, AutoSelect(t).allIngredients) by {
      GrowsTrans(s.allIngredients, t.allIngredients, AutoSelect(t).allIngredients);
    }
    assert !(e.Removed? || e.SelectionCleared?) ==> Grows(s.selected, AutoSelect(t).selected) by {
      if !(e.Removed? || e.SelectionCleared?) {
        GrowsTrans(s.selected, t.selected, AutoSelect(t).selected);
      }
    }
    AutoSelect(t)
  }

  /** Removing an ingredient while the search still names it exactly, with no other
      suggestion, brings it straight back: the effect re-adds it at the end of the
      selection and clears the search. */
  lemma RemovedLoneMatchReturns(s: PickerState, n: string)
    requires Valid(s) && n in s.selected
    requires s.searchTerm != "" && Lower(n) == Lower(s.searchTerm) && Filtered(s) == []
    ensures Step(s, Removed(n)).selected == Without(s.selected, n) + [n]
    ensures Step(s, Removed(n)).searchTerm == ""
  {
    var t := RemoveIngredient(s, n);
    RemoveKeepsValid(s, n);
    var f := Filtered(t);
    FilterSpec(s.allIngredients, s.searchTerm, s.selected);
    FilterSpec(t.allIngredients, t.searchTerm, t.selected);
    SubsequenceKeepsDistinct(f, t.allIngredients);
    ContainsSelf(Lower(n));
    assert n in f;
    forall x | x in f ensures x == n {
      assert x in s.allIngredients && Suggested(x, s.searchTerm, t.selected);
    }
    OnlyElement(f, n);
    FilteredTrimmed(t);
    TrimOfTrimmed(n);
    WithoutSpec(s.selected, n);
  }

  /** A list without repeats whose every element is `n`, and which holds `n`, is `[n]`. */
  lemma OnlyElement(f: seq<string>, n: string)
    requires NoDuplicates(f) && n in f && forall x :: x in f ==> x == n
    ensures f == [n]
  {
    assert f[0] in f;
    assert f[|f| - 1] in f;
    assert f == [f[0]];
  }

  lemma KeyDownKeepsValid(s: PickerState, key: Key)
    requires Valid(s)
    ensures Valid(KeyDown(s, key))
  {
    match key
    case Enter => AddKeepsValid(s, EnterChoice(s));
    case Tab => if |Filtered(s)| == 1 { AddKeepsValid(s, Filtered(s)[0]); }
    case _ =>
  }

  lemma StepKeepsValid(s: PickerState, e: Event)
    requires Valid(s)
    ensures Valid(Step(s, e))
  {
    var t := Handle(s, e);
    assert Valid(t) by {
      match e
      case Typed(v) =>
      case Pressed(k) => KeyDownKeepsValid(s, k);
      case Clicked(i) => AddKeepsValid(s, i);
      case Removed(n) => RemoveKeepsValid(s, n);
      case SelectionCleared =>
    }
    AutoSelectKeepsValid(t);
  }

  function Run(s: PickerState, es: seq<Event>): PickerState
    decreases |es|
  {
    if |es| == 0 then s else Run(Step(s, es[0]), es[1..])
  }

  /** From a valid state, any sequence of picker events keeps the selection duplicate-free,
      within the known ingredients, and every known ingredient trimmed. */
  lemma {:induction false} RunKeepsValid(s: PickerState, es: seq<Event>)
    requires Valid(s)
    ensures Valid(Run(s, es))
    ensures NoDuplicates(Run(s, es).selected)
    decreases |es|
  {
    if |es| > 0 {
      StepKeepsValid(s, es[0]);
      RunKeepsValid(Step(s, es[0]), es[1..]);
    }
  }
}

=== FILE: settings.dfy ===
/** The settings panel (src/components/AISettings.tsx): each handler edits one field of the
    configuration, and numeric edits are accepted only inside fixed ranges. The browser's
    `parseFloat`/`parseInt` is an input: `None` stands for `NaN`. */
module Settings {
  import opened Types

  const Models: seq<string> := ["gpt-4o-mini"]
  const MinTemperature: real := 0.0
  const MaxTemperature: real := 2.0
  const MinTokens: int := 1
  const MaxTokens: int := 2048

  /** The ranges the panel keeps. */
  predicate InRange(c: Configuration) {
    MinTemperature <= c.temperature <= MaxTemperature && MinTokens <= c.maxTokens <= MaxTokens
  }

  /** `handleApiKeyChange`: only the typed key changes; the key in use stays. */
  function ApiKeyChanged(c: Configuration, value: string): (r: Configuration)
    ensures r.apiKeyInput == value
    ensures r.apiKey == c.apiKey && r.temperature == c.temperature
            && r.maxTokens == c.maxTokens && r.model == c.model
  {
    c.(apiKeyInput := value)
  }

  /** `handleAuthorize`: the typed key becomes the key in use. */
  function Authorize(c: Configuration): (r: Configuration)
    ensures r.apiKey == c.apiKeyInput
    ensures r.apiKeyInput == c.apiKeyInput && r.temperature == c.temperature
            && r.maxTokens == c.maxTokens && r.model == c.model
  {
    c.(apiKey := c.apiKeyInput)
  }

  /** `handleTemperatureChange`: applied exactly when the parsed value lies in [0, 2];
      a value outside, or no number at all, leaves the configuration as it was. */
  function TemperatureChanged(c: Configuration, parsed: Option<real>): (r: Configuration)
    ensures (parsed.Some? && 0.0 <= parsed.value <= 2.0) ==> r == c.(temperature := parsed.value)
    ensures !(parsed.Some? && 0.0 <= parsed.value <= 2.0) ==> r == c
  {
    if parsed.Some? && parsed.value >= MinTemperature && parsed.value <= MaxTemperature
    then c.(temperature := parsed.value)
    else c
  }

  /** `handleMaxTokensChange`: applied exactly when the parsed integer lies in [1, 2048]. */
  function MaxTokensChanged(c: Configuration, parsed: Option<int>): (r: Configuration)
    ensures (parsed.Some? && 1 <= parsed.value <= 2048) ==> r == c.(maxTokens := parsed.value)
    ensures !(parsed.Some? && 1 <= parsed.value <= 2048) ==> r == c
  {
    if parsed.Some? && parsed.value >= MinTokens && parsed.value <= MaxTokens
    then c.(maxTokens := parsed.value)
    else c
  }

  /** `handleModelChange`: the chosen model, whatever it is. */
  function ModelChanged(c: Configuration, value: string): (r: Configuration)
    ensures r.model == value
    ensures r.apiKey == c.apiKey && r.apiKeyInput == c.apiKeyInput
            && r.temperature == c.temperature && r.maxTokens == c.maxTokens
  {
    c.(model := value)
  }

  /** One user action on the panel. */
  datatype Edit =
    | ApiKeyTyped(value: string)
    | AuthorizeClicked
    | TemperatureTyped(parsedTemperature: Option<real>)
    | MaxTokensTyped(parsedTokens: Option<int>)
    | ModelSelected(value: string)

  function Apply(c: Configuration, e: Edit): Configuration {
    match e
    case ApiKeyTyped(v) => ApiKeyChanged(c, v)
    case AuthorizeClicked => Authorize(c)
    case TemperatureTyped(p) => TemperatureChanged(c, p)
    case MaxTokensTyped(p) => MaxTokensChanged(c, p)
    case ModelSelected(v) => ModelChanged(c, v)
  }

  function ApplyAll(c: Configuration, es: seq<Edit>): Configuration
    decreases |es|
  {
    if |es| == 0 then c else ApplyAll(Apply(c, es[0]), es[1..])
  }

  /** Every single edit keeps the ranges. */
  lemma ApplyKeepsRange(c: Configuration, e: Edit)
    requires InRange(c)
    ensures InRange(Apply(c, e))
  {
  }

  /** Starting in range, the configuration stays in range across any sequence of edits. */
  lemma {:induction false} ApplyAllKeepsRange(c: Configuration, es: seq<Edit>)
    requires InRange(c)
    ensures InRange(ApplyAll(c, es))
    decreases |es|
  {
    if |es| > 0 {
      ApplyKeepsRange(c, es[0]);
      ApplyAllKeepsRange(Apply(c, es[0]), es[1..]);
    }
  }

  /** The key in use changes only through Authorize, which copies the typed key. */
  lemma ApiKeyOnlyByAuthorize(c: Configuration, e: Edit)
    ensures Apply(c, e).apiKey != c.apiKey ==> e.AuthorizeClicked? && Apply(c, e).apiKey == c.apiKeyInput
  {
  }

  /** Without an Authorize click, no sequence of edits changes the key in use. */
  lemma {:induction false} ApiKeyStableWithoutAuthorize(c: Configuration, es: seq<Edit>)
    requires forall k :: 0 <= k < |es| ==> !es[k].AuthorizeClicked?
    ensures ApplyAll(c, es).apiKey == c.apiKey
    decreases |es|
  {
    if |es| > 0 {
      assert !es[0].AuthorizeClicked?;
      ApiKeyStableWithoutAuthorize(Apply(c, es[0]), es[1..]);
    }
  }

  /** Unparseable input changes nothing, because both range comparisons fail. */
  lemma NotANumberChangesNothing(c: Configuration)
    ensures Apply(c, TemperatureTyped(None)) == c
    ensures Apply(c, MaxTokensTyped(None)) == c
  {
  }
}

=== FILE: strings.dfy ===
/** The JavaScript string operations the application relies on:
    `trim`, `toLowerCase`, `includes` and `Array.prototype.join`. */
module Strings {

  /** ECMAScript WhiteSpace and LineTerminator code points, the set `String.prototype.trim` removes. */
  predicate IsJsWhitespace(c: char) {
    || c == '\t' || c == '\U{000B}' || c == '\U{000C}' || c == ' ' || c == '\U{00A0}' || c == '\U{FEFF}'
    || c == '\n' || c == '\r' || c == '\U{2028}' || c == '\U{2029}'
    || c == '\U{1680}' || ('\U{2000}' <= c <= '\U{200A}') || c == '\U{202F}' || c == '\U{205F}' || c == '\U{3000}'
  }

  predicate AllWhitespace(s: string) {
    forall k :: 0 <= k < |s| ==> IsJsWhitespace(s[k])
  }

  /** Drops leading white space. */
  function TrimStart(s: string): (r: string)
    ensures |r| <= |s| && r == s[|s| - |r|..]
    ensures AllWhitespace(s[..|s| - |r|])
    ensures r == [] || !IsJsWhitespace(r[0])
  {
    if |s| > 0 && IsJsWhitespace(s[0]) then
      var r := TrimStart(s[1..]);
      WhitespaceBefore(s, r);
      r
    else s
  }

  /** A white-space-only prefix stays white-space-only when one white-space character is put before it. */
  lemma WhitespaceBefore(s: string, r: string)
    requires |s| > 0 && IsJsWhitespace(s[0])
    requires |r| <= |s| - 1 && r == s[1..][|s| - 1 - |r|..]
    requires AllWhitespace(s[1..][..|s| - 1 - |r|])
    ensures r == s[|s| - |r|..] && AllWhitespace(s[..|s| - |r|])
  {
    var n := |s| - |r|;
    assert s[1..][n - 1..] == s[n..];
    forall k | 0 <= k < n
      ensures IsJsWhitespace(s[..n][k])
    {
      if k > 0 {
        assert s[..n][k] == s[1..][..n - 1][k - 1];
      }
    }
  }

  /** Drops trailing white space. */
  function TrimEnd(s: string): (r: string)
    ensures |r| <= |s| && r == s[..|r|]
    ensures AllWhitespace(s[|r|..])
    ensures r == [] || !IsJsWhitespace(r[|r| - 1])
  {
    if |s| > 0 && IsJsWhitespace(s[|s| - 1]) then
      var r := TrimEnd(s[..|s| - 1]);
      WhitespaceAfter(s, r);
      r
    else s
  }

  /** A white-space-only suffix stays white-space-only when one white-space character is put after it. */
  lemma WhitespaceAfter(s: string, r: string)
    requires |s| > 0 && IsJsWhitespace(s[|s| - 1])
    requires |r| <= |s| - 1 && r == s[..|s| - 1][..|r|]
    requires AllWhitespace(s[..|s| - 1][|r|..])
    ensures r == s[..|r|] && AllWhitespace(s[|r|..])
  {
    assert s[..|s| - 1][..|r|] == s[..|r|];
    forall k | 0 <= k < |s| - |r|
      ensures IsJsWhitespace(s[|r|..][k])
    {
      if k < |s| - 1 - |r| {
        assert s[|r|..][k] == s[..|s| - 1][|r|..][k];
      }
    }
  }

  /** `s.trim()`: `s` without its leading and trailing white space. */
  function Trim(s: string): (r: string)
    ensures r == [] || (!IsJsWhitespace(r[0]) && !IsJsWhitespace(r[|r| - 1]))
    ensures r == [] <==> AllWhitespace(s)
    ensures forall c :: c in r ==> c in s
  {
    var t := TrimStart(s);
    var r := TrimEnd(t);
    TrimBothEnds(s, t, r);
    r
  }

  /** What trimming the front, then the back, leaves. */
  lemma TrimBothEnds(s: string, t: string, r: string)
    requires |t| <= |s| && t == s[|s| - |t|..] && AllWhitespace(s[..|s| - |t|])
    requires t == [] || !IsJsWhitespace(t[0])
    requires |r| <= |t| && r == t[..|r|] && AllWhitespace(t[|r|..])
    requires r == [] || !IsJsWhitespace(r[|r| - 1])
    ensures r == [] || (!IsJsWhitespace(r[0]) && !IsJsWhitespace(r[|r| - 1]))
    ensures r == [] <==> AllWhitespace(s)
    ensures forall c :: c in r ==> c in s
  {
    var n := |s| - |t|;
    if r != [] {
      assert r[0] == t[0];
      assert !AllWhitespace(s) by {
        assert s[n] == t[0];
      }
    } else {
      assert t[|r|..] == t;
      assert AllWhitespace(t);
      assert |t| == 0;
      assert s[..n] == s;
    }
    forall c | c in r ensures c in s {
      var i :| 0 <= i < |r| && r[i] == c;
      assert s[n + i] == c;
    }
  }

  /** `r` sits in `s` at offset `i` with nothing but white space before and after it. */
  predicate PaddedAt(s: string, r: string, i: int) {
    0 <= i && i + |r| <= |s| && s[i..i + |r|] == r
    && AllWhitespace(s[..i]) && AllWhitespace(s[i + |r|..])
  }

  /** Dropping white space from the front of `s`, then from the back of what remains,
      leaves an infix padded by white space. */
  lemma PaddedSuffixPrefix(s: string, t: string, r: string)
    requires |t| <= |s| && t == s[|s| - |t|..] && AllWhitespace(s[..|s| - |t|])
    requires |r| <= |t| && r == t[..|r|] && AllWhitespace(t[|r|..])
    ensures PaddedAt(s, r, |s| - |t|)
  {
    var i := |s| - |t|;
    var j := i + |r|;
    assert s[i..j] == r;
    assert s[j..] == t[|r|..];
  }

  /** Trimming removes only white space, and only from the two ends: the result is an
      infix of `s` with nothing but white space around it. */
  lemma TrimIsInfix(s: string)
    ensures exists i :: PaddedAt(s, Trim(s), i)
  {
    var t := TrimStart(s);
    var r := TrimEnd(t);
    PaddedSuffixPrefix(s, t, r);
    assert Trim(s) == r;
  }

  /** Trimming twice is trimming once. */
  lemma TrimIdempotent(s: string)
    ensures Trim(Trim(s)) == Trim(s)
  {
    var r := Trim(s);
    assert TrimStart(r) == r;
    assert TrimEnd(r) == r;
  }

  function LowerChar(c: char): char {
    if 'A' <= c <= 'Z' then (c as int + 32) as char else c
  }

  /** `s.toLowerCase()` restricted to the ASCII letters. */
  function Lower(s: string): (r: string)
    ensures |r| == |s|
    ensures forall k :: 0 <= k < |r| ==> !('A' <= r[k] <= 'Z')
    ensures forall k :: 0 <= k < |r| ==> (r[k] == s[k] || ('A' <= s[k] <= 'Z' && r[k] as int == s[k] as int + 32))
  {
    seq(|s|, k requires 0 <= k < |s| => LowerChar(s[k]))
  }

  predicate OccursAt(hay: string, needle: string, i: int) {
    0 <= i && i + |needle| <= |hay| && hay[i..i + |needle|] == needle
  }

  /** `hay.includes(needle)`. */
  predicate Contains(hay: string, needle: string) {
    exists i :: 0 <= i <= |hay| && OccursAt(hay, needle, i)
  }

  lemma ContainsMiddle(a: string, b: string, c: string)
    ensures Contains(a + b + c, b)
  {
    assert (a + b + c)[|a|..|a| + |b|] == b;
    assert OccursAt(a + b + c, b, |a|);
  }

  lemma ContainsTransitive(a: string, b: string, c: string)
    requires Contains(a, b) && Contains(b, c)
    ensures Contains(a, c)
  {
    var i :| 0 <= i <= |a| && OccursAt(a, b, i);
    var j :| 0 <= j <= |b| && OccursAt(b, c, j);
    forall k | 0 <= k < |c|
      ensures a[i + j + k] == c[k]
    {
      assert c[k] == b[j..j + |c|][k] == b[j + k];
      assert b[j + k] == a[i..i + |b|][j + k] == a[i + j + k];
    }
    assert a[i + j..i + j + |c|] == c;
    assert OccursAt(a, c, i + j);
  }

  /** What occurs in `b` occurs in `a + b`. */
  lemma ContainsAfter(a: string, b: string, x: string)
    requires Contains(b, x)
    ensures Contains(a + b, x)
  {
    var i :| 0 <= i <= |b| && OccursAt(b, x, i);
    assert (a + b)[|a| + i..|a| + i + |x|] == b[i..i + |x|];
    assert OccursAt(a + b, x, |a| + i);
  }

  /** What occurs in `a` occurs in `a + b`. */
  lemma ContainsBefore(a: string, b: string, x: string)
    requires Contains(a, x)
    ensures Contains(a + b, x)
  {
    var i :| 0 <= i <= |a| && OccursAt(a, x, i);
    assert (a + b)[i..i + |x|] == a[i..i + |x|];
    assert OccursAt(a + b, x, i);
  }

  /** A string occurs in itself. */
  lemma ContainsSelf(x: string)
    ensures Contains(x, x)
  {
    assert x[0..|x|] == x;
    assert OccursAt(x, x, 0);
  }

  /** `xs.join(sep)`. */
  function Join(xs: seq<string>, sep: string): string {
    if |xs| == 0 then ""
    else if |xs| == 1 then xs[0]
    else xs[0] + sep + Join(xs[1..], sep)
  }

  /** Joining after appending one element adds the separator and that element. */
  lemma {:induction false} JoinSnoc(xs: seq<string>, x: string, sep: string)
    requires |xs| > 0
    ensures Join(xs + [x], sep) == Join(xs, sep) + sep + x
  {
    if |xs| == 1 {
      assert xs + [x] == [xs[0], x];
    } else {
      assert (xs + [x])[1..] == xs[1..] + [x];
      JoinSnoc(xs[1..], x, sep);
    }
  }

  /** Joining two non-empty lists puts the separator once between their joins. */
  lemma {:induction false} JoinAppend(xs: seq<string>, ys: seq<string>, sep: string)
    requires |xs| > 0 && |ys| > 0
    ensures Join(xs + ys, sep) == Join(xs, sep) + sep + Join(ys, sep)
  {
    if |xs| == 1 {
      assert (xs + ys)[1..] == ys;
    } else {
      assert (xs + ys)[1..] == xs[1..] + ys;
      JoinAppend(xs[1..], ys, sep);
    }
  }

  /** With a non-empty separator the join is empty exactly when there is nothing to join
      or a single empty element. */
  lemma {:induction false} JoinEmptyIff(xs: seq<string>, sep: string)
    requires sep != ""
    ensures Join(xs, sep) == "" <==> (|xs| == 0 || (|xs| == 1 && xs[0] == ""))
  {
    if |xs| >= 2 {
      assert |Join(xs, sep)| >= |sep|;
    }
  }

  /** Every element occurs in the join. */
  lemma {:induction false} JoinContainsElement(xs: seq<string>, sep: string, k: int)
    requires 0 <= k < |xs|
    ensures Contains(Join(xs, sep), xs[k])
  {
    if |xs| == 1 {
      ContainsMiddle("", xs[0], "");
      assert "" + xs[0] + "" == xs[0];
    } else if k == 0 {
      ContainsMiddle("", xs[0], sep + Join(xs[1..], sep));
      assert "" + xs[0] + (sep + Join(xs[1..], sep)) == Join(xs, sep);
    } else {
      JoinContainsElement(xs[1..], sep, k - 1);
      ContainsMiddle(xs[0] + sep, Join(xs[1..], sep), "");
      assert xs[0] + sep + Join(xs[1..], sep) + "" == Join(xs, sep);
      ContainsTransitive(Join(xs, sep), Join(xs[1..], sep), xs[k]);
    }
  }

  /** Splits `s` at every occurrence of `c` (`s.split(c)` for a one-character separator). */
  function Split(s: string, c: char): (r: seq<string>)
    ensures |r| >= 1
  {
    if |s| == 0 then [""]
    else if s[0] == c then [""] + Split(s[1..], c)
    else var rest := Split(s[1..], c); [[s[0]] + rest[0]] + rest[1..]
  }

  lemma {:induction false} SplitNoSeparator(s: string, c: char)
    requires c !in s
    ensures Split(s, c) == [s]
  {
    if |s| > 0 {
      SplitNoSeparator(s[1..], c);
      assert [s[0]] + s[1..] == s;
    }
  }

  lemma {:induction false} SplitAfterFirst(a: string, c: char, rest: string)
    requires c !in a
    ensures Split(a + [c] + rest, c) == [a] + Split(rest, c)
  {
    if |a| == 0 {
      assert a + [c] + rest == [c] + rest;
      assert ([c] + rest)[1..] == rest;
    } else {
      var s := a + [c] + rest;
      assert s[1..] == a[1..] + [c] + rest;
      SplitAfterFirst(a[1..], c, rest);
      assert [a[0]] + a[1..] == a;
    }
  }

  /** Splitting a join at its one-character separator gives back the parts,
      provided no part contains the separator. */
  lemma {:induction false} SplitJoin(xs: seq<string>, c: char)
    requires |xs| >= 1
    requires forall k :: 0 <= k < |xs| ==> c !in xs[k]
    ensures Split(Join(xs, [c]), c) == xs
  {
    if |xs| == 1 {
      SplitNoSeparator(xs[0], c);
    } else {
      SplitJoin(xs[1..], c);
      SplitAfterFirst(xs[0], c, Join(xs[1..], [c]));
      assert [xs[0]] + xs[1..] == xs;
    }
  }
}

=== FILE: types.dfy ===
/** The records shared by the whole application (src/types.ts). */
module Types {

  /** A value that may be missing: `null`/`undefined` in the application. */
  datatype Option<+T> = None | Some(value: T)

  /** One numbered ingredient/measure pair of a drink (`strIngredientN`, `strMeasureN`).
      Either half may be absent (`null` or a missing key). */
  datatype Slot = Slot(ingredient: Option<string>, measure: Option<string>)

  /** A drink as the cocktail database returns it. `slots[i - 1]` holds pair number `i`;
      a pair past the end of `slots` reads as absent. */
  datatype Drink = Drink(
    idDrink: string,
    strDrink: string,
    strDrinkThumb: string,
    strInstructions: string,
    slots: seq<Slot>)

  /** The language-model settings the user edits. */
  datatype Configuration = Configuration(
    apiKey: string,
    apiKeyInput: string,
    temperature: real,
    maxTokens: int,
    model: string)

  /** JavaScript truthiness of an optional string: present and non-empty. */
  predicate Truthy(o: Option<string>) {
    o.Some? && o.value != ""
  }
}
